=== FILE: README.md ===
# bar-lobby content API: a Dafny model

This project models the string handling at the heart of the lobby's
`ContentAPI` (`src/api/content.ts`). That code fetches the game engine, follows
game updates through the `pr-downloader` subprocess, and reads the game's
version manifest. The model covers:

- **Engine tag codec** (`VersionCodec`):
  - `engineTagNameToVersionString`, which turns a release tag such as
    `spring_bar_{BAR105}105.1.1-807-g98b14ce` into the directory name
    `BAR-105.1.1-807-g98b14ce`;
  - the tag that `getEngineRelease` rebuilds from such a name.
- **pr-downloader line classifier** (`PrDownloader`):
  - `processLine`, which tokenises on single spaces and strips the bracketed
    type;
  - the `Progress` branch with its byte counts;
  - `isProgressMessage`.
- **stdout router of `updateGame`** (`GameUpdate`):
  - each chunk is trimmed, split on `\r\n`, emptied of empty records and
    classified; a record of spaces only is kept and makes `processLine`
    fault;
  - the messages are folded through a two-phase state (`Metadata`, then
    `Game`);
  - the `onGameProress` dispatches are collected as a list.
- **Engine selectors** (`EngineContent`):
  - the portable asset that `downloadLatestEngine` picks for a platform;
  - the filter in `listInstalledEngineVersions`.
- **Manifest parse of `getLatestVersionInfo`** (`VersionManifest`): the last
  line of the trimmed text, read as `tag,md5,<ignored>,version`.

Supporting modules:

- `JsString` gives the JavaScript string operations the code relies on:
  - `trim` over the ECMAScript whitespace set;
  - `split` with a non-empty separator (leftmost occurrences, left to right);
  - `join`;
  - `filter(Boolean)` over strings.
- `JsNumber` gives the global `parseInt` without a radix, per ECMA-262:
  - leading whitespace is skipped;
  - an optional sign is read;
  - a `0x` prefix selects radix 16;
  - the longest digit prefix is read;
  - `NaN` is modelled as `None`.
- `Sequences` holds small facts of sequence algebra.
- `Wrappers` holds `Option`, `Result` and the error kinds.

The format check `isEngineTag` is defined in `src/model/formats`, which is not
part of this model. Every member that uses it takes it as a parameter
`isEngineTag: string -> bool`, so each property holds for any such check.

Two behaviours of the code differ from what a reader might expect, and the
model follows the code:

- **Which segment is converted.** The conversion does not take the text after
  the last `}`. It takes the second `}`-separated segment (`split("}")[1]`),
  and `ConversionUsesSecondSegment` states this. A tag with no `}`
  interpolates `undefined`, giving `BAR-undefined`. That string is then judged
  by `isEngineTag` like any other.
- **Short manifest lines.** A manifest line with fewer than four fields does
  not fail. The code destructures whatever `split(",")` returns, so missing
  fields are `undefined`. The model returns `None` in those fields.

## Model

| member | source | states |
|---|---|---|
| VersionCodec.EngineTagNameToVersionString | src/api/content.ts:216-227 | a success is accepted by `isEngineTag`, starts with `BAR-` and holds no `}`; every failure is the malformed-tag error |
| VersionCodec.SecondSegmentOf | src/api/content.ts:218 | for `head}segment` followed by nothing or by `}...`, the segment read is exactly `segment`; later segments play no part |
| VersionCodec.ConversionUsesSecondSegment | src/api/content.ts:216-223 | the conversion of such a tag is `BAR-segment` when `isEngineTag` accepts it and the malformed-tag error otherwise |
| VersionCodec.TagWithoutBraceFails | src/api/content.ts:218-226 | a tag without `}` is rejected whenever `isEngineTag` rejects `BAR-undefined` |
| VersionCodec.MajorVersion | src/api/content.ts:86 | the major version is a prefix of the base tag, holds no `.`, and is followed by `.` or the end |
| VersionCodec.MajorVersionOf | src/api/content.ts:86 | for `major.rest` with `major` free of `.`, the major version is `major` |
| VersionCodec.GitTagOf | src/api/content.ts:85-87 | the rebuilt tag starts with `spring_bar_{BAR` and ends with the version string minus its first four characters |
| VersionCodec.VersionRoundTrip | src/api/content.ts:85-87 | a `BAR-` version string without `}` that `isEngineTag` accepts converts back to itself from its rebuilt tag |
| VersionCodec.TagRoundTrip | src/api/content.ts:216-222 | a tag of the shape `spring_bar_{BAR<major>}<base>` converts to `BAR-<base>`, which rebuilds that same tag |
| VersionCodec.VersionRoundTripAt | src/api/content.ts:85-87 | both round trips for a base written as `major.rest` |
| VersionCodec.SecondSegment | src/api/content.ts:218 | the segment is absent exactly when the tag has no `}`, and a present segment holds no `}` |
| VersionCodec.ExampleTag | src/api/content.ts:215-218 | the left-hand tag of the comment above the conversion converts to `BAR-105.1.1-807-g98b14ce`, and that name rebuilds the tag; the comment's right-hand side (`BAR-105.1.1-809-g3f69f26`) names another build and is not what the code produces |
| PrDownloader.Tokens | src/api/content.ts:235 | tokens are non-empty and hold no space |
| PrDownloader.TokensAround | src/api/content.ts:235 | tokenising `a + " " + b` gives the tokens of `a` followed by those of `b` |
| PrDownloader.TokensOfWord | src/api/content.ts:235 | a non-empty word without spaces is its own only token |
| PrDownloader.TokensOfJoin | src/api/content.ts:235 | tokenising the space-join of non-empty, space-free words gives the words back in order |
| PrDownloader.TokensAfterWordChar | src/api/content.ts:235 | a line starting with a character other than a space has a token |
| PrDownloader.NoTokensIffBlank | src/api/content.ts:235-238 | a line has no tokens exactly when it consists of spaces only, which is when `parts[0]` is undefined |
| PrDownloader.MessageType | src/api/content.ts:237-240 | a token not starting with `[` is its own type; a longer `[`-token is `[`, then the type, then its last character, whatever that character is; `[` alone gives the empty type |
| PrDownloader.BracketedType | src/api/content.ts:238-240 | `[ty]` has type `ty` |
| PrDownloader.ParseProgress | src/api/content.ts:242-251 | a progress result keeps the tokens and has a non-zero total |
| PrDownloader.ProgressFields | src/api/content.ts:242-251 | for any tokens ending in `c/t` with `t` reading as `n`: dropped when `n` is 0, otherwise percent `parseInt(parts[1])`, current `parseInt(c)` (`NaN` kept, it is not checked) and total `n` |
| PrDownloader.ExtraSlashesIgnored | src/api/content.ts:244-251 | with a last token `c/t/rest` whose total `t` reads as a number, the result is that of `c/t`: `rest` plays no part |
| PrDownloader.NaNTotalExtraSlash | src/api/content.ts:244-249 | with a last token `c/t/rest` whose total `t` reads as `NaN`, the line is dropped whatever `rest` holds |
| PrDownloader.NaNTotalDrops | src/api/content.ts:244-249 | for any tokens ending in `c/t`, a total `t` that `parseInt` reads as `NaN` (`-`, `0x`, `abc`, ...) drops the line, whatever the percent and the current count |
| PrDownloader.CurrentBytesUnchecked | src/api/content.ts:245-251 | a current count that is not a number still yields a progress message, with a `NaN` current count |
| PrDownloader.ProcessLine | src/api/content.ts:230-255 | the empty line gives null; a non-empty line whose first token's type is not `Progress` gives `{type, parts}` with all its tokens; one whose type is `Progress` gives the result of the byte-count branch; `isProgressMessage` holds exactly for the progress variant; a progress message has a non-zero total |
| PrDownloader.IsProgressMessage | src/api/content.ts:257-259 | every progress message passes; a generic message passes exactly when its type is literally `Progress` |
| PrDownloader.ClassifyWords | src/api/content.ts:230-255 | a line of words is classifiable; it takes the byte-count path exactly when its first word's type is `Progress`, and otherwise yields `{type, parts}` |
| PrDownloader.GenericLine | src/api/content.ts:254 | a line `[ty] w1 ... wn` with `ty` other than `Progress` yields `Generic(ty, tokens)` |
| PrDownloader.ProgressLineClassified | src/api/content.ts:242 | a rendered progress line is classifiable and goes through the byte-count branch |
| PrDownloader.ProgressLineRoundTrip | src/api/content.ts:242-251 | `[Progress] p ... c/t` reads back percent `p`, current `c` and total `t`, and is dropped exactly when `t` is 0 |
| PrDownloader.NonNumericTotalDropped | src/api/content.ts:246-249 | a progress line whose total does not start like a number is dropped |
| PrDownloader.MissingTotalDropped | src/api/content.ts:244-249 | a progress line whose last token has no `/` is dropped |
| PrDownloader.ExampleProgress | src/api/content.ts:242-251 | `[Progress] 42 ... 1000/2000` yields percent 42, current 1000 and total 2000 |
| PrDownloader.ExampleDroppedProgress | src/api/content.ts:247-249 | `[Progress] 10 ... 500/abc` is dropped |
| PrDownloader.ExampleGeneric | src/api/content.ts:254 | `[Other] foo bar` yields type `Other` with its three tokens |
| JsNumber.ParseIntReadsDecimal | src/api/content.ts:245-246 | `parseInt` reads a numeral back whatever non-digit follows, except for an `x` after `0` |
| JsNumber.ParseIntReadsNegatedDecimal | src/api/content.ts:245-246 | a leading `-` negates the value read |
| JsNumber.ParseIntHexPrefix | src/api/content.ts:243 | `0x1A` reads as 26: a `0x` prefix selects radix 16 |
| JsNumber.ParseInt | src/api/content.ts:243-246 | a blank string, or one starting with a character that is not whitespace, a digit or a sign, gives `NaN` |
| JsString.Split | src/api/content.ts:139 | `split`, used also at lines 202, 203, 218, 235 and 244: a split always has at least one piece; SplitJoin and SplitAtFirst below pin the pieces |
| JsString.DropEmpty | src/api/content.ts:139 | `filter(Boolean)`, used also at line 235, keeps exactly the non-empty strings, so the result is no longer than the input and holds no empty string |
| JsString.Contains | src/api/content.ts:34 | `includes`, used also at line 147, holds for the empty string and never for a string longer than the one searched; ContainsInfix gives every infix |
| JsString.ContainsInfix | src/api/content.ts:34 | a string contains each of its infixes |
| JsString.Trim | src/api/content.ts:139 | the result neither starts nor ends with whitespace, and is empty exactly when the input is all whitespace |
| JsString.TrimOfTrimmed | src/api/content.ts:139 | a string without whitespace at either end is left unchanged |
| JsString.SplitJoin | src/api/content.ts:139 | joining the pieces of a split with its separator gives the input back |
| JsString.SplitPiecesAvoidSeparator | src/api/content.ts:139 | no piece of a split contains the separator |
| JsString.SplitAtFirst | src/api/content.ts:139 | a split stops at the first occurrence of the separator |
| JsString.SplitAround | src/api/content.ts:235 | splitting on a character distributes over an occurrence of that character |
| JsString.JoinSplit | src/api/content.ts:203 | splitting the join of separator-free pieces gives the pieces back |
| JsString.DropEmptyAppend | src/api/content.ts:139 | `filter(Boolean)` distributes over concatenation |
| JsString.DropEmptyKeepsNonEmpty | src/api/content.ts:139 | `filter(Boolean)` keeps a list of non-empty strings whole |
| GameUpdate.MarksDownloadStream | src/api/content.ts:147 | a marking message has a second token at least as long as `downloadStream` |
| GameUpdate.MarkerInSecondPart | src/api/content.ts:147 | a second token holding `downloadStream` anywhere marks the message, whatever its type and other tokens |
| GameUpdate.Step | src/api/content.ts:142-150 | the phase never returns to `Metadata`; it changes only on a `downloadStream` marker in `parts[1]`; a message is dispatched exactly when it is a progress message in the `Game` phase; dispatches are appended as game progress |
| GameUpdate.Route | src/api/content.ts:142-151 | over a chunk's messages the phase never returns to `Metadata`, and the dispatched list only grows by game progress |
| GameUpdate.ProgressEvents | src/api/content.ts:143-145 | the reference dispatch list is no longer than its input and holds only progress messages tagged `Game` |
| GameUpdate.RouteInGame | src/api/content.ts:143-146 | once in `Game`, exactly the progress messages are dispatched, in order |
| GameUpdate.RouteBeforeMarker | src/api/content.ts:143-149 | before any marker nothing is dispatched and the phase stays `Metadata` |
| GameUpdate.RouteAcrossMarker | src/api/content.ts:143-149 | the first marker flips the phase without being dispatched; every later progress message is dispatched |
| GameUpdate.RouteAppend | src/api/content.ts:142 | routing two runs of messages is routing the first, then the second from where it left off |
| GameUpdate.PhaseFlipsIffMarker | src/api/content.ts:147-148 | starting in `Metadata`, the phase ends in `Game` exactly when some message carries the marker |
| GameUpdate.Records | src/api/content.ts:139 | records are non-empty and hold no `\r\n` |
| GameUpdate.ClassifyAll | src/api/content.ts:141 | there are no more messages than lines |
| GameUpdate.ClassifyAllAppend | src/api/content.ts:141 | classification distributes over concatenation, so message order follows line order |
| GameUpdate.ClassifyOne | src/api/content.ts:141 | one line contributes its message, or nothing when it is null |
| GameUpdate.SplitJoinedRecords | src/api/content.ts:139 | splitting a `\r\n`-join of lines free of `\r\n` gives the lines |
| GameUpdate.RecordsOfChunk | src/api/content.ts:139 | lines free of `\r\n`, each ended by `\r\n`, come back as the chunk's records with exactly the empty lines dropped, in order |
| GameUpdate.EmptyRecordDropped | src/api/content.ts:139 | `a\r\n\r\nb\r\n` gives the records `a` and `b`: the empty record between them is dropped |
| GameUpdate.HandleChunk | src/api/content.ts:138-152 | the listener faults exactly when some record has no tokens; a successful pass keeps the phase monotone and only appends game progress |
| GameUpdate.ChunkOfLines | src/api/content.ts:138-151 | a chunk of such lines routes the lines' messages in line order |
| GameUpdate.Feed | src/api/content.ts:138-152 | across chunks the phase never returns to `Metadata`, and the dispatched list only grows by game progress |
| EngineContent.ArchString | src/api/content.ts:33 | the marker is `windows` exactly for `win32` and `linux` otherwise |
| EngineContent.IsPortableFor | src/api/content.ts:34 | a matching name is at least as long as each marker |
| EngineContent.PortableNameMatches | src/api/content.ts:34 | a name holding the architecture marker and `portable`, in either order and around any text, matches whatever the URL |
| EngineContent.FindPortableAsset | src/api/content.ts:33-37 | fails exactly when no asset holds both the marker and `portable`; otherwise returns the first asset that does |
| EngineContent.Accepted | src/api/content.ts:108-112 | the accepted entries are exactly the listing's entries that pass `isEngineTag` |
| EngineContent.ListInstalledEngineVersions | src/api/content.ts:102-115 | the loop returns the order-preserving filter of the listing: every result passes the check and comes from the listing, and every passing entry is kept |
| EngineContent.AcceptedAppend | src/api/content.ts:108-112 | filtering distributes over concatenation of listings, so order is kept |
| EngineContent.AcceptedIdempotent | src/api/content.ts:108-112 | filtering an already filtered listing changes nothing |
| VersionManifest.ParseRecord | src/api/content.ts:203-206 | the tag is the comma-free prefix of the line; `md5` is absent exactly when the line has no comma; a `version` implies an `md5` |
| VersionManifest.RecordFieldsOf | src/api/content.ts:203-206 | a comma-join of any number of comma-free fields yields fields 0, 1 and 3, each of the last two absent when the line is too short |
| VersionManifest.LastLine | src/api/content.ts:201-203 | a blank manifest gives the empty line, since splitting the empty string yields one empty piece |
| VersionManifest.LatestVersionInfo | src/api/content.ts:201-206 | `md5` is absent exactly when the manifest's last line has no comma; a blank manifest gives an empty tag with no `md5` and no version rather than a failure |
| VersionManifest.OneLineManifest | src/api/content.ts:201-206 | a manifest of one line, followed by any whitespace, yields the parse of that line |
| VersionManifest.SingleRecord | src/api/content.ts:201-206 | a manifest holding one well-formed record yields its tag, hash and version |
| VersionManifest.RecordFields | src/api/content.ts:203-206 | `tag,md5,x,version` yields fields 0, 1 and 3, and field 2 is ignored |
| VersionManifest.LatestIsOneLine | src/api/content.ts:201-203 | the line read is a single line, so the tag holds no newline |
| VersionManifest.LastLineWins | src/api/content.ts:201-203 | earlier lines and trailing whitespace never affect the result, which is the parse of the last line |
| VersionManifest.LatestRecord | src/api/content.ts:201-206 | a manifest ending in a well-formed record yields that record's tag, hash and version |
| VersionManifest.ExampleManifest | src/api/content.ts:201-206 | of two records with a trailing newline, the second one is returned |

## Left out

- Network access is not modelled: the axios downloads, their progress callbacks (`onEngineProgress`), the versions download and the Octokit release queries (`getLatestEngineRelease`, the request in `getEngineRelease`). The model starts from the release asset list and the decompressed manifest text.
- Filesystem access is not modelled: `mkdir`, `writeFile`, `unlink`, `readdir` and `existsSync`. The directory listing is an input, and `isEngineVersionInstalled`, `isVersionInstalled`, `isLatestEngineVersionInstalled` and `isLatestGameVersionInstalled` are left out because they only combine a query with such a check.
- `path.join`, `extract7z`, `zlib.gunzipSync` and the `console` output are foreign calls without logic to model.
- The child-process lifecycle is left out because it is asynchronous: spawning `pr-downloader`, the stderr listener that rejects and kills, the close listener that signals `onDone`, and `isRapidInitialized`.
- `window.info.contentPath`, `process.platform` and the constructor's choice of binary path are ambient settings. The platform is passed as a string parameter.
- `downloadEngine` has an empty body in the source.
- `src/model/api.ts` declares interface types only.
- PrDownloader.ProcessLine: the percent is the integer `parseInt` reads. The division by 100 is floating-point and not modelled.
- JsNumber.ParseInt: uses unbounded integers, not IEEE doubles, so numerals beyond 2^53 are read exactly here while JavaScript rounds them.
- JsString.Split: strings are sequences of Unicode scalar values. JavaScript indexes UTF-16 code units, so text outside the Basic Multilingual Plane, where the two differ, is not modelled; this also concerns `slice(1, -1)` in PrDownloader.MessageType and `slice(4)` in VersionCodec.GitTagOf.
- GameUpdate.Feed: when a chunk makes `processLine` fault, the exception is thrown inside an event listener. The model keeps the state and moves on to the next chunk, which is what happens in the Electron renderer that hosts this code: the listener throws before it dispatches anything, and the process keeps listening. In plain Node the exception would be uncaught and end the process.
- GameUpdate.Step: `onGameProress.dispatch` is modelled as appending to a list of dispatched messages. Listeners are not modelled.
- GameUpdate.Step: the source sets `downloadType` by mutating the message object. The model wraps the message in a record that holds the download type.

=== FILE: EngineContent.dfy ===
/** Engine-side selections of the content API: which release asset
    `downloadLatestEngine` fetches, and which directories
    `listInstalledEngineVersions` reports. The directory listing and the
    release's asset list are inputs; the format check `isEngineTag` is a
    parameter. */
module EngineContent {
  import opened Wrappers
  import opened Sequences
  import opened Errors
  import opened JsString

  /** A release asset: its file name and download URL. */
  datatype Asset = Asset(name: string, browserDownloadUrl: string)

  const PortableMarker := "portable"

  /** The architecture marker for a value of `process.platform`. */
  function ArchString(platform: string): (arch: string)
    ensures arch == "windows" || arch == "linux"
    ensures arch == "windows" <==> platform == "win32"
  {
    if platform == "win32" then "windows" else "linux"
  }

  /** The test passed to `assets.find`: the name holds both markers, in
      either order, and the download URL plays no part. */
  function IsPortableFor(asset: Asset, arch: string): (b: bool)
    ensures b ==> |asset.name| >= |arch| && |asset.name| >= |PortableMarker|
  {
    Contains(asset.name, arch) && Contains(asset.name, PortableMarker)
  }

  lemma ContainsBoth(x: string, m1: string, y: string, m2: string, z: string)
    ensures Contains(x + m1 + y + m2 + z, m1) && Contains(x + m1 + y + m2 + z, m2)
  {
    ContainsInfix(x, m1, y + m2 + z);
    ContainsInfix(x + m1 + y, m2, z);
    assert x + m1 + (y + m2 + z) == x + m1 + y + m2 + z;
  }

  /** A name with the architecture marker and "portable" around any other
      text matches, in either order. */
  lemma PortableNameMatches(arch: string, a: string, b: string, c: string, url: string)
    ensures IsPortableFor(Asset(a + arch + b + PortableMarker + c, url), arch)
    ensures IsPortableFor(Asset(a + PortableMarker + b + arch + c, url), arch)
  {
    ContainsBoth(a, arch, b, PortableMarker, c);
    ContainsBoth(a, PortableMarker, b, arch, c);
  }

  /** The asset `downloadLatestEngine` downloads: the first one whose name
      holds both the architecture marker and "portable"; without one it
      throws. */
  method FindPortableAsset(assets: seq<Asset>, platform: string)
    returns (r: Result<Asset, ContentError>)
    ensures r.Failure? <==>
      forall k :: 0 <= k < |assets| ==> !IsPortableFor(assets[k], ArchString(platform))
    ensures r.Failure? ==> r.error == AssetNotFound
    ensures r.Success? ==>
      exists k :: 0 <= k < |assets| && assets[k] == r.value
        && IsPortableFor(r.value, ArchString(platform))
        && forall j :: 0 <= j < k ==> !IsPortableFor(assets[j], ArchString(platform))
  {
    var arch := ArchString(platform);
    var i := 0;
    while i < |assets|
      invariant 0 <= i <= |assets|
      invariant forall j :: 0 <= j < i ==> !IsPortableFor(assets[j], arch)
    {
      if IsPortableFor(assets[i], arch) {
        return Success(assets[i]);
      }
      i := i + 1;
    }
    return Failure(AssetNotFound);
  }

  /** The entries of a listing that pass the format check, in listing
      order: the reference for `listInstalledEngineVersions`. */
  function Accepted(isEngineTag: string -> bool, entries: seq<string>): (r: seq<string>)
    ensures |r| <= |entries|
    ensures forall v :: v in r <==> v in entries && isEngineTag(v)
    decreases |entries|
  {
    if entries == [] then []
    else
      var init := entries[..|entries| - 1];
      var last := entries[|entries| - 1];
      assert entries == init + [last];
      Accepted(isEngineTag, init) + (if isEngineTag(last) then [last] else [])
  }

  /** `listInstalledEngineVersions` over an already-read directory listing:
      the loop pushes every entry that passes the check. */
  method ListInstalledEngineVersions(isEngineTag: string -> bool, engineDirs: seq<string>)
    returns (engineVersions: seq<string>)
    ensures engineVersions == Accepted(isEngineTag, engineDirs)
    ensures forall v :: v in engineVersions ==> isEngineTag(v) && v in engineDirs
    ensures forall d :: d in engineDirs && isEngineTag(d) ==> d in engineVersions
  {
    engineVersions := [];
    for i := 0 to |engineDirs|
      invariant engineVersions == Accepted(isEngineTag, engineDirs[..i])
    {
      assert engineDirs[..i + 1][..i] == engineDirs[..i];
      if isEngineTag(engineDirs[i]) {
        engineVersions := engineVersions + [engineDirs[i]];
      }
    }
    assert engineDirs[..|engineDirs|] == engineDirs;
  }

  /** Filtering keeps order: it distributes over concatenation of
      listings. */
  lemma {:induction false} AcceptedAppend(isEngineTag: string -> bool, xs: seq<string>, ys: seq<string>)
    ensures Accepted(isEngineTag, xs + ys) == Accepted(isEngineTag, xs) + Accepted(isEngineTag, ys)
    decreases |ys|
  {
    if ys == [] {
      AppendEmpty(xs, ys);
    } else {
      var init := ys[..|ys| - 1];
      var last := ys[|ys| - 1];
      AppendBack(xs, ys);
      AcceptedAppend(isEngineTag, xs, init);
      AppendAssoc(Accepted(isEngineTag, xs), Accepted(isEngineTag, init), if isEngineTag(last) then [last] else []);
    }
  }

  /** Filtering is idempotent: a listing of accepted names passes whole. */
  lemma {:induction false} AcceptedIdempotent(isEngineTag: string -> bool, entries: seq<string>)
    ensures Accepted(isEngineTag, Accepted(isEngineTag, entries)) == Accepted(isEngineTag, entries)
    decreases |entries|
  {
    if entries != [] {
      var init := entries[..|entries| - 1];
      var last := entries[|entries| - 1];
      AcceptedIdempotent(isEngineTag, init);
      var tail := if isEngineTag(last) then [last] else [];
      AcceptedAppend(isEngineTag, Accepted(isEngineTag, init), tail);
      if isEngineTag(last) {
        assert Accepted(isEngineTag, [last]) == Accepted(isEngineTag, []) + [last];
      }
    }
  }
}

=== FILE: GameUpdate.dfy ===
/** The stdout side of `updateGame`: each chunk the pr-downloader writes is
    cut into records, the records are classified, and progress messages are
    republished only once the binary download has started. Publishing on
    `onGameProress` is modelled as appending to an output list. */
module GameUpdate {
  import opened Wrappers
  import opened Errors
  import opened JsString
  import opened PrDownloader
  import opened Sequences

  datatype DownloadType = Metadata | Game

  /** A progress message as dispatched, with its `downloadType` set. */
  datatype GameProgress = GameProgress(message: Message, downloadType: DownloadType)

  /** The state the stdout listener threads: the current phase and what it
      has dispatched so far. */
  datatype Router = Router(phase: DownloadType, dispatched: seq<GameProgress>)

  const RecordSeparator := "\r\n"
  const DownloadStreamMarker := "downloadStream"

  /** The state of a fresh `updateGame` call. */
  const Initial := Router(Metadata, [])

  /** `message.parts?.[1]?.includes("downloadStream")`: the marker is looked
      for in the second token only, and a message of one token never marks. */
  function MarksDownloadStream(message: Message): (b: bool)
    ensures b ==> |message.parts| >= 2 && |message.parts[1]| >= |DownloadStreamMarker|
  {
    |message.parts| >= 2 && Contains(message.parts[1], DownloadStreamMarker)
  }

  /** A second token holding the marker anywhere marks the message, whatever
      its type and its other tokens. */
  lemma MarkerInSecondPart(message: Message, before: string, after: string)
    requires |message.parts| >= 2 && message.parts[1] == before + DownloadStreamMarker + after
    ensures MarksDownloadStream(message)
  {
    ContainsInfix(before, DownloadStreamMarker, after);
  }

  /** Every entry is a progress message dispatched in the `Game` phase. */
  predicate AllGameProgress(events: seq<GameProgress>) {
    forall k :: 0 <= k < |events| ==>
      events[k].downloadType == Game && IsProgressMessage(events[k].message)
  }

  /** `after` is `before` followed by game-phase progress messages only:
      nothing dispatched is ever withdrawn or rewritten. */
  predicate Extends(before: seq<GameProgress>, after: seq<GameProgress>) {
    && |after| >= |before|
    && after[..|before|] == before
    && AllGameProgress(after[|before|..])
  }

  lemma ExtendsRefl(events: seq<GameProgress>)
    ensures Extends(events, events)
  {
    assert events[|events|..] == [];
  }

  lemma ExtendsTrans(a: seq<GameProgress>, b: seq<GameProgress>, c: seq<GameProgress>)
    requires Extends(a, b) && Extends(b, c)
    ensures Extends(a, c)
  {
    assert c[..|a|] == c[..|b|][..|a|];
    var tail := c[|a|..];
    assert tail == b[|a|..] + c[|b|..];
    forall k | 0 <= k < |tail|
      ensures tail[k].downloadType == Game && IsProgressMessage(tail[k].message)
    {
      if k < |b| - |a| {
        assert tail[k] == b[|a|..][k];
      } else {
        assert tail[k] == c[|b|..][k - (|b| - |a|)];
      }
    }
  }

  /** One pass of the `for` loop body. */
  function Step(router: Router, message: Message): (next: Router)
    ensures router.phase == Game ==> next.phase == Game
    ensures next.phase != router.phase ==> MarksDownloadStream(message)
    ensures |next.dispatched| > |router.dispatched| <==>
              router.phase == Game && IsProgressMessage(message)
    ensures Extends(router.dispatched, next.dispatched)
  {
    if IsProgressMessage(message) && router.phase == Game then
      var next := Router(Game, router.dispatched + [GameProgress(message, Game)]);
      assert next.dispatched[..|router.dispatched|] == router.dispatched;
      assert next.dispatched[|router.dispatched|..] == [GameProgress(message, Game)];
      next
    else if MarksDownloadStream(message) then
      ExtendsRefl(router.dispatched);
      Router(Game, router.dispatched)
    else
      ExtendsRefl(router.dispatched);
      router
  }

  /** The `for` loop over one chunk's messages. */
  function Route(router: Router, messages: seq<Message>): (next: Router)
    ensures router.phase == Game ==> next.phase == Game
    ensures Extends(router.dispatched, next.dispatched)
    decreases |messages|
  {
    if messages == [] then
      ExtendsRefl(router.dispatched);
      router
    else
      var mid := Step(router, messages[0]);
      var next := Route(mid, messages[1..]);
      ExtendsTrans(router.dispatched, mid.dispatched, next.dispatched);
      next
  }

  /** The progress messages of a sequence, as the `Game` phase dispatches
      them: the reference the router is checked against. */
  function ProgressEvents(messages: seq<Message>): (events: seq<GameProgress>)
    ensures |events| <= |messages|
    ensures AllGameProgress(events)
    decreases |messages|
  {
    if messages == [] then []
    else
      (if IsProgressMessage(messages[0]) then [GameProgress(messages[0], Game)] else [])
      + ProgressEvents(messages[1..])
  }

  /** `stdout.toString().trim().split("\r\n").filter(Boolean)`. */
  function Records(chunk: string): (records: seq<string>)
    ensures forall k :: 0 <= k < |records| ==> records[k] != ""
    ensures forall k :: 0 <= k < |records| ==> !Contains(records[k], RecordSeparator)
  {
    var pieces := Split(Trim(chunk), RecordSeparator);
    SplitPiecesAvoidSeparator(Trim(chunk), RecordSeparator);
    var records := DropEmpty(pieces);
    assert forall k :: 0 <= k < |records| ==> records[k] in pieces;
    records
  }

  /** Every line can be handed to `processLine`. */
  predicate AllClassifiable(lines: seq<string>) {
    forall k :: 0 <= k < |lines| ==> Classifiable(lines[k])
  }

  /** `lines.map(processLine).filter(Boolean)`. */
  function ClassifyAll(lines: seq<string>): (messages: seq<Message>)
    requires AllClassifiable(lines)
    ensures |messages| <= |lines|
    decreases |lines|
  {
    if lines == [] then []
    else
      AllClassifiableTail(lines);
      ProcessLine(lines[0]).ToSeq() + ClassifyAll(lines[1..])
  }

  lemma AllClassifiableTail(lines: seq<string>)
    requires |lines| >= 1 && AllClassifiable(lines)
    ensures Classifiable(lines[0]) && AllClassifiable(lines[1..])
  {
    forall k | 0 <= k < |lines| - 1
      ensures Classifiable(lines[1..][k])
    {
      assert lines[1..][k] == lines[k + 1];
    }
  }

  lemma AllClassifiableAppend(xs: seq<string>, ys: seq<string>)
    requires AllClassifiable(xs) && AllClassifiable(ys)
    ensures AllClassifiable(xs + ys)
  {
    forall k | 0 <= k < |xs + ys|
      ensures Classifiable((xs + ys)[k])
    {
      if k < |xs| {
        assert (xs + ys)[k] == xs[k];
      } else {
        assert (xs + ys)[k] == ys[k - |xs|];
      }
    }
  }

  /** The `data` listener on stdout. Every record is classified before any
      message is routed, so a record of spaces only (which makes
      `processLine` fault) leaves the router as it was. */
  function HandleChunk(router: Router, chunk: string): (r: Result<Router, ContentError>)
    ensures r.Failure? <==> exists k :: 0 <= k < |Records(chunk)| && !Classifiable(Records(chunk)[k])
    ensures r.Failure? ==> r.error == UnclassifiableLine
    ensures r.Success? ==> router.phase == Game ==> r.value.phase == Game
    ensures r.Success? ==> Extends(router.dispatched, r.value.dispatched)
  {
    var records := Records(chunk);
    if AllClassifiable(records) then
      Success(Route(router, ClassifyAll(records)))
    else
      Failure(UnclassifiableLine)
  }

  /** The listener over a run of chunks; a chunk whose handling faults
      contributes nothing and the next chunk is handled as usual. */
  function Feed(router: Router, chunks: seq<string>): (next: Router)
    ensures router.phase == Game ==> next.phase == Game
    ensures Extends(router.dispatched, next.dispatched)
    decreases |chunks|
  {
    if chunks == [] then
      ExtendsRefl(router.dispatched);
      router
    else
      var mid := match HandleChunk(router, chunks[0])
        case Success(r) => r
        case Failure(_) => router;
      ExtendsRefl(router.dispatched);
      var next := Feed(mid, chunks[1..]);
      ExtendsTrans(router.dispatched, mid.dispatched, next.dispatched);
      next
  }

  // ---------------------------------------------------------------------
  // Routing properties

  /** Once in the `Game` phase, exactly the progress messages are
      dispatched, in order. */
  lemma {:induction false} RouteInGame(dispatched: seq<GameProgress>, messages: seq<Message>)
    ensures Route(Router(Game, dispatched), messages)
         == Router(Game, dispatched + ProgressEvents(messages))
    decreases |messages|
  {
    if messages == [] {
      AppendEmpty(dispatched, ProgressEvents(messages));
    } else {
      var m := messages[0];
      var head := if IsProgressMessage(m) then [GameProgress(m, Game)] else [];
      RouteInGame(dispatched + head, messages[1..]);
      AppendAssoc(dispatched, head, ProgressEvents(messages[1..]));
      if !IsProgressMessage(m) {
        AppendEmpty(dispatched, head);
      }
    }
  }

  /** Before any marker, nothing is dispatched and the phase stays put. */
  lemma {:induction false} RouteBeforeMarker(dispatched: seq<GameProgress>, messages: seq<Message>)
    requires forall k :: 0 <= k < |messages| ==> !MarksDownloadStream(messages[k])
    ensures Route(Router(Metadata, dispatched), messages) == Router(Metadata, dispatched)
    decreases |messages|
  {
    if messages != [] {
      RouteBeforeMarker(dispatched, messages[1..]);
    }
  }

  /** The first marker flips the phase; the message carrying it is not
      dispatched, and every later progress message is. */
  lemma RouteAcrossMarker(
    dispatched: seq<GameProgress>, before: seq<Message>, marker: Message, after: seq<Message>)
    requires forall k :: 0 <= k < |before| ==> !MarksDownloadStream(before[k])
    requires MarksDownloadStream(marker)
    ensures Route(Router(Metadata, dispatched), before + [marker] + after)
         == Router(Game, dispatched + ProgressEvents(after))
  {
    RouteAppend(Router(Metadata, dispatched), before, [marker] + after);
    assert before + [marker] + after == before + ([marker] + after);
    RouteBeforeMarker(dispatched, before);
    assert ([marker] + after)[1..] == after;
    RouteInGame(dispatched, after);
  }

  lemma {:induction false} RouteAppend(router: Router, xs: seq<Message>, ys: seq<Message>)
    ensures Route(router, xs + ys) == Route(Route(router, xs), ys)
    decreases |xs|
  {
    if xs == [] {
      assert xs + ys == ys;
    } else {
      assert (xs + ys)[1..] == xs[1..] + ys;
      RouteAppend(Step(router, xs[0]), xs[1..], ys);
    }
  }

  /** The phase reaches `Game` exactly when some message carries the
      marker. */
  lemma {:induction false} PhaseFlipsIffMarker(dispatched: seq<GameProgress>, messages: seq<Message>)
    ensures Route(Router(Metadata, dispatched), messages).phase == Game
        <==> exists k :: 0 <= k < |messages| && MarksDownloadStream(messages[k])
    decreases |messages|
  {
    if messages != [] {
      var m := messages[0];
      PhaseFlipsIffMarker(dispatched, messages[1..]);
      if MarksDownloadStream(m) {
        assert MarksDownloadStream(messages[0]);
      } else {
        assert Step(Router(Metadata, dispatched), m) == Router(Metadata, dispatched);
        if exists k :: 0 <= k < |messages| && MarksDownloadStream(messages[k]) {
          var k :| 0 <= k < |messages| && MarksDownloadStream(messages[k]);
          assert messages[1..][k - 1] == messages[k];
        }
        forall k | 0 <= k < |messages[1..]| && MarksDownloadStream(messages[1..][k])
          ensures exists j :: 0 <= j < |messages| && MarksDownloadStream(messages[j])
        {
          assert messages[k + 1] == messages[1..][k];
        }
      }
    }
  }

  // ---------------------------------------------------------------------
  // Chunk properties

  /** Classification preserves order: it distributes over concatenation,
      and a single line contributes its message, if any. */
  lemma {:induction false} ClassifyAllAppend(xs: seq<string>, ys: seq<string>)
    requires AllClassifiable(xs) && AllClassifiable(ys)
    ensures AllClassifiable(xs + ys)
    ensures ClassifyAll(xs + ys) == ClassifyAll(xs) + ClassifyAll(ys)
    decreases |xs|
  {
    AllClassifiableAppend(xs, ys);
    if xs == [] {
      EmptyAppend(xs, ys);
    } else {
      AllClassifiableTail(xs);
      ClassifyAllAppend(xs[1..], ys);
      AppendFront(xs, ys);
      AppendAssoc(ProcessLine(xs[0]).ToSeq(), ClassifyAll(xs[1..]), ClassifyAll(ys));
    }
  }

  lemma ClassifyOne(line: string)
    requires Classifiable(line)
    ensures ClassifyAll([line]) == ProcessLine(line).ToSeq()
  {
  }

  lemma NoCrlfInsideWithCr(a: string)
    requires !Contains(a, RecordSeparator)
    ensures !Contains(a + RecordSeparator[..1], RecordSeparator)
  {
    var p := a + "\r";
    assert RecordSeparator[..1] == "\r";
    assert p[|p| - 1] == '\r';
    if Contains(p, RecordSeparator) {
      var i :| 0 <= i <= |p| - 2 && OccursAt(p, RecordSeparator, i);
      assert p[i..i + 2][1] == p[i + 1];
      if i + 2 <= |a| {
        assert a[i..i + 2] == p[i..i + 2];
        assert OccursAt(a, RecordSeparator, i);
      }
    }
  }

  /** Splitting a `\r\n`-join of lines free of `\r\n` gives the lines. */
  lemma {:induction false} SplitJoinedRecords(lines: seq<string>)
    requires |lines| >= 1
    requires forall k :: 0 <= k < |lines| ==> !Contains(lines[k], RecordSeparator)
    ensures Split(Join(lines, RecordSeparator), RecordSeparator) == lines
    decreases |lines|
  {
    if |lines| == 1 {
      SplitAtFirstAbsent(lines[0]);
    } else {
      SplitJoinedRecords(lines[1..]);
      NoCrlfInsideWithCr(lines[0]);
      SplitAtFirst(lines[0], RecordSeparator, Join(lines[1..], RecordSeparator));
      assert lines == [lines[0]] + lines[1..];
    }
  }

  /** A string without `\r\n` splits on it into itself. */
  lemma {:induction false} SplitAtFirstAbsent(s: string)
    requires !Contains(s, RecordSeparator)
    ensures Split(s, RecordSeparator) == [s]
    decreases |s|
  {
    if |s| >= 2 {
      assert !OccursAt(s, RecordSeparator, 0);
      var t := s[1..];
      if Contains(t, RecordSeparator) {
        var i :| 0 <= i <= |t| - 2 && OccursAt(t, RecordSeparator, i);
        assert s[i + 1..i + 3] == t[i..i + 2];
        assert OccursAt(s, RecordSeparator, i + 1);
      }
      SplitAtFirstAbsent(t);
      assert s == [s[0]] + t;
    }
  }

  /** The record protocol round trip: lines written by the subprocess,
      each terminated by `\r\n`, come back as the chunk's records with the
      empty lines dropped, provided each line is free of `\r\n` and the
      chunk does not start or end with whitespace inside the lines. */
  lemma RecordsOfChunk(lines: seq<string>)
    requires |lines| >= 1
    requires forall k :: 0 <= k < |lines| ==> !Contains(lines[k], RecordSeparator)
    requires lines[0] != "" && !IsWhitespace(lines[0][0])
    requires lines[|lines| - 1] != "" && !IsWhitespace(lines[|lines| - 1][|lines[|lines| - 1]| - 1])
    ensures Records(Join(lines, RecordSeparator) + RecordSeparator) == DropEmpty(lines)
  {
    var body := Join(lines, RecordSeparator);
    JoinFirst(lines, RecordSeparator);
    JoinLast(lines, RecordSeparator);
    assert AllWhitespace(RecordSeparator);
    TrimEndDropsWhitespaceTail(body, RecordSeparator);
    TrimOfTrimmed(body);
    assert Trim(body + RecordSeparator) == body;
    SplitJoinedRecords(lines);
  }

  /** An empty line between two records is dropped by `filter(Boolean)`. */
  lemma EmptyRecordDropped(a: string, b: string)
    requires !Contains(a, RecordSeparator) && !Contains(b, RecordSeparator)
    requires a != "" && !IsWhitespace(a[0])
    requires b != "" && !IsWhitespace(b[|b| - 1])
    ensures Records(a + RecordSeparator + RecordSeparator + b + RecordSeparator) == [a, b]
  {
    var lines := [a, "", b];
    JoinThree(a, "", b, RecordSeparator);
    assert a + RecordSeparator + "" + RecordSeparator + b == a + RecordSeparator + RecordSeparator + b;
    RecordsOfChunk(lines);
    assert lines[1..] == ["", b] && lines[1..][1..] == [b];
    assert DropEmpty([b]) == [b];
  }

  lemma JoinFirst(parts: seq<string>, sep: string)
    requires |parts| >= 1 && parts[0] != ""
    ensures var j := Join(parts, sep); |j| >= 1 && j[0] == parts[0][0]
  {
  }

  lemma {:induction false} JoinLast(parts: seq<string>, sep: string)
    requires |parts| >= 1 && parts[|parts| - 1] != ""
    ensures var j := Join(parts, sep);
      |j| >= 1 && j[|j| - 1] == parts[|parts| - 1][|parts[|parts| - 1]| - 1]
    decreases |parts|
  {
    if |parts| > 1 {
      JoinLast(parts[1..], sep);
    }
  }

  /** What a chunk made of such lines does: its messages, in line order,
      are routed from the current state. */
  lemma ChunkOfLines(router: Router, lines: seq<string>)
    requires |lines| >= 1
    requires forall k :: 0 <= k < |lines| ==> lines[k] != "" && !Contains(lines[k], RecordSeparator)
    requires AllClassifiable(lines)
    requires !IsWhitespace(lines[0][0])
    requires !IsWhitespace(lines[|lines| - 1][|lines[|lines| - 1]| - 1])
    ensures HandleChunk(router, Join(lines, RecordSeparator) + RecordSeparator)
         == Success(Route(router, ClassifyAll(lines)))
  {
    RecordsOfChunk(lines);
    DropEmptyKeepsNonEmpty(lines);
  }
}

=== FILE: JsNumber.dfy ===
/** JavaScript's global `parseInt(string)` with no radix argument, over
    unbounded integers. `None` stands for `NaN`. */
module JsNumber {
  import opened Wrappers
  import opened JsString

  predicate IsDecimalDigit(c: char) { '0' <= c <= '9' }

  predicate IsHexDigit(c: char) {
    IsDecimalDigit(c) || 'a' <= c <= 'f' || 'A' <= c <= 'F'
  }

  predicate IsRadixDigit(c: char, radix: nat) {
    if radix == 16 then IsHexDigit(c) else IsDecimalDigit(c)
  }

  predicate AllRadixDigits(ds: string, radix: nat) {
    forall i :: 0 <= i < |ds| ==> IsRadixDigit(ds[i], radix)
  }

  function DigitValue(c: char): (d: nat)
    requires IsHexDigit(c)
    ensures d < 16
    ensures IsDecimalDigit(c) <==> d < 10
  {
    if IsDecimalDigit(c) then c as int - '0' as int
    else if 'a' <= c <= 'f' then c as int - 'a' as int + 10
    else c as int - 'A' as int + 10
  }

  /** Length of the longest prefix of `s` made of radix digits. */
  function DigitRun(s: string, radix: nat): (n: nat)
    ensures n <= |s|
    ensures AllRadixDigits(s[..n], radix)
    ensures n == |s| || !IsRadixDigit(s[n], radix)
    decreases |s|
  {
    if |s| > 0 && IsRadixDigit(s[0], radix) then
      var n := 1 + DigitRun(s[1..], radix);
      assert s[..n] == [s[0]] + s[1..][..n - 1];
      n
    else 0
  }

  /** The number a digit string denotes, most significant digit first. */
  function DigitsValue(ds: string, radix: nat): nat
    requires AllRadixDigits(ds, radix)
    decreases |ds|
  {
    if ds == [] then 0
    else DigitsValue(ds[..|ds| - 1], radix) * radix + DigitValue(ds[|ds| - 1])
  }

  /** The unsigned part of `parseInt`: a `0x`/`0X` prefix selects radix 16,
      otherwise radix 10; the longest digit prefix is read and no digits at
      all is `NaN`. */
  function ParseMagnitude(u: string): (r: Option<nat>)
    ensures r.None? <==> (if HasHexPrefix(u) then DigitRun(u[2..], 16) == 0 else DigitRun(u, 10) == 0)
  {
    var radix := if HasHexPrefix(u) then 16 else 10;
    var v := if HasHexPrefix(u) then u[2..] else u;
    var n := DigitRun(v, radix);
    if n == 0 then None else Some(DigitsValue(v[..n], radix))
  }

  predicate HasHexPrefix(u: string) {
    |u| >= 2 && u[0] == '0' && (u[1] == 'x' || u[1] == 'X')
  }

  /** `parseInt(s)`: skip leading whitespace, then read a signed magnitude. */
  function ParseInt(s: string): (r: Option<int>)
    ensures AllWhitespace(s) ==> r == None
    ensures |s| > 0 && !IsWhitespace(s[0]) && !IsDecimalDigit(s[0]) && s[0] != '-' && s[0] != '+'
            ==> r == None
  {
    TrimStartIsSuffix(s);
    ParseSigned(TrimStart(s))
  }

  /** An optional `-` or `+` followed by a magnitude. */
  function ParseSigned(t: string): Option<int> {
    if |t| > 0 && t[0] == '-' then
      match ParseMagnitude(t[1..])
      case None => None
      case Some(m) => Some(-(m as int))
    else if |t| > 0 && t[0] == '+' then
      match ParseMagnitude(t[1..])
      case None => None
      case Some(m) => Some(m as int)
    else
      match ParseMagnitude(t)
      case None => None
      case Some(m) => Some(m as int)
  }

  lemma TrimStartOfSignificant(s: string)
    requires s == [] || !IsWhitespace(s[0])
    ensures TrimStart(s) == s
  {
  }

  function DigitChar(d: nat): (c: char)
    requires d < 10
    ensures IsDecimalDigit(c) && DigitValue(c) == d
  {
    ('0' as int + d) as char
  }

  /** The shortest decimal numeral for `n`, as `String(n)` renders it. */
  function DecimalString(n: nat): (s: string)
    ensures |s| >= 1
    ensures AllRadixDigits(s, 10)
    ensures s[0] == '0' ==> n == 0
    ensures DigitsValue(s, 10) == n
    decreases n
  {
    if n < 10 then [DigitChar(n)]
    else
      var s := DecimalString(n / 10) + [DigitChar(n % 10)];
      assert s[..|s| - 1] == DecimalString(n / 10);
      s
  }

  lemma {:induction false} DigitRunOfDigits(ds: string, rest: string, radix: nat)
    requires AllRadixDigits(ds, radix)
    requires rest == [] || !IsRadixDigit(rest[0], radix)
    ensures DigitRun(ds + rest, radix) == |ds|
    decreases |ds|
  {
    if ds != [] {
      assert (ds + rest)[1..] == ds[1..] + rest;
      DigitRunOfDigits(ds[1..], rest, radix);
    } else {
      assert ds + rest == rest;
    }
  }

  lemma ParseMagnitudeOfDecimal(n: nat, rest: string)
    requires rest == [] || !IsDecimalDigit(rest[0])
    requires n != 0 || rest == [] || (rest[0] != 'x' && rest[0] != 'X')
    ensures ParseMagnitude(DecimalString(n) + rest) == Some(n)
  {
    var ds := DecimalString(n);
    var u := ds + rest;
    assert u[0] == ds[0];
    assert |ds| > 1 ==> u[1] == ds[1];
    assert |ds| == 1 && rest != [] ==> u[1] == rest[0];
    assert !HasHexPrefix(u);
    DigitRunOfDigits(ds, rest, 10);
    assert u[..|ds|] == ds;
  }

  /** `parseInt` reads back the decimal numeral of `n` and ignores
      whatever follows the digits. The one exception is a following `x` or
      `X` after `"0"`, which makes it a hexadecimal prefix. */
  lemma ParseIntReadsDecimal(n: nat, rest: string)
    requires rest == [] || !IsDecimalDigit(rest[0])
    requires n != 0 || rest == [] || (rest[0] != 'x' && rest[0] != 'X')
    ensures ParseInt(DecimalString(n) + rest) == Some(n as int)
  {
    var ds := DecimalString(n);
    var u := ds + rest;
    ParseMagnitudeOfDecimal(n, rest);
    assert u[0] == ds[0];
    TrimStartOfSignificant(u);
    assert ParseSigned(u) == Some(n as int);
  }

  /** `parseInt` reads back a bare decimal numeral. */
  lemma ParseIntOfDecimal(n: nat)
    ensures ParseInt(DecimalString(n)) == Some(n as int)
  {
    ParseIntReadsDecimal(n, "");
    assert DecimalString(n) + "" == DecimalString(n);
  }

  /** The same for a numeral preceded by a minus sign. */
  lemma ParseIntReadsNegatedDecimal(n: nat, rest: string)
    requires rest == [] || !IsDecimalDigit(rest[0])
    requires n != 0 || rest == [] || (rest[0] != 'x' && rest[0] != 'X')
    ensures ParseInt("-" + DecimalString(n) + rest) == Some(-(n as int))
  {
    var ds := DecimalString(n);
    var u := ds + rest;
    var s := "-" + u;
    ParseMagnitudeOfDecimal(n, rest);
    assert "-" + ds + rest == s;
    assert s[1..] == u;
    TrimStartOfSignificant(s);
    assert ParseSigned(s) == Some(-(n as int));
  }

  lemma HexMagnitude(s: string)
    requires s == "0x1A"
    ensures ParseMagnitude(s) == Some(26)
  {
    var v := "1A";
    assert s[2..] == v;
    assert HasHexPrefix(s);
    DigitRunOfDigits(v, "", 16);
    assert v + "" == v;
    assert v[..1] == "1";
    assert "1"[..0] == "";
    assert DigitsValue("1", 16) == 1;
    assert v[..2] == v;
  }

  lemma HexSigned(s: string)
    requires s == "0x1A"
    ensures s != [] && !IsWhitespace(s[0])
    ensures ParseSigned(s) == Some(26)
  {
    HexMagnitude(s);
    assert s[0] == '0';
  }

  /** The example from ECMA-262: a `0x` prefix selects radix 16. */
  lemma ParseIntHexPrefix()
    ensures ParseInt("0x1A") == Some(26)
  {
    var s := "0x1A";
    HexSigned(s);
    TrimStartOfSignificant(s);
  }
}

=== FILE: JsString.dfy ===
/** The fragment of ECMAScript string behaviour the content API relies on:
    `String.prototype.trim`, `split` with a non-empty string separator,
    `includes`, and `Array.prototype.filter(Boolean)` on arrays of strings. */
module JsString {
  import opened Sequences

  /** A WhiteSpace or LineTerminator code point of ECMA-262, the set that
      `trim` removes and `parseInt` skips. */
  predicate IsWhitespace(c: char) {
    var n := c as int;
    || (0x09 <= n <= 0x0D)
    || n == 0x20 || n == 0xA0 || n == 0x1680
    || (0x2000 <= n <= 0x200A)
    || n == 0x2028 || n == 0x2029 || n == 0x202F || n == 0x205F
    || n == 0x3000 || n == 0xFEFF
  }

  predicate AllWhitespace(s: string) {
    forall i :: 0 <= i < |s| ==> IsWhitespace(s[i])
  }

  /** `s` with its leading whitespace removed. */
  function TrimStart(s: string): (r: string)
    ensures |r| <= |s|
    ensures r == [] || !IsWhitespace(r[0])
    decreases |s|
  {
    if |s| > 0 && IsWhitespace(s[0]) then TrimStart(s[1..]) else s
  }

  /** `s` with its trailing whitespace removed. */
  function TrimEnd(s: string): (r: string)
    ensures |r| <= |s|
    ensures r == [] || !IsWhitespace(r[|r| - 1])
    decreases |s|
  {
    if |s| > 0 && IsWhitespace(s[|s| - 1]) then TrimEnd(s[..|s| - 1]) else s
  }

  /** `s.trim()`. */
  function Trim(s: string): (r: string)
    ensures r == [] || (!IsWhitespace(r[0]) && !IsWhitespace(r[|r| - 1]))
    ensures r == [] <==> AllWhitespace(s)
  {
    var e := TrimEnd(s);
    var r := TrimStart(e);
    TrimEndIsPrefix(s);
    TrimStartIsSuffix(e);
    assert r == [] ==> AllWhitespace(s) by {
      if r == [] {
        assert s == e + s[|e|..];
        assert e == e[..|e| - |r|];
      }
    }
    assert |r| > 0 ==> r[|r| - 1] == e[|e| - 1];
    r
  }

  /** `trim` removes both ends, the end first. */
  lemma TrimUnfold(s: string)
    ensures Trim(s) == TrimStart(TrimEnd(s))
  {
  }

  /** What `TrimStart` removes is a whitespace prefix. */
  lemma {:induction false} TrimStartIsSuffix(s: string)
    ensures var r := TrimStart(s);
      && r == s[|s| - |r|..]
      && AllWhitespace(s[..|s| - |r|])
    decreases |s|
  {
    if |s| > 0 && IsWhitespace(s[0]) {
      TrimStartIsSuffix(s[1..]);
      var r := TrimStart(s);
      assert s[..|s| - |r|] == [s[0]] + s[1..][..|s| - 1 - |r|];
    }
  }

  /** What `TrimEnd` removes is a whitespace suffix. */
  lemma {:induction false} TrimEndIsPrefix(s: string)
    ensures var r := TrimEnd(s);
      && r == s[..|r|]
      && AllWhitespace(s[|r|..])
    decreases |s|
  {
    if |s| > 0 && IsWhitespace(s[|s| - 1]) {
      TrimEndIsPrefix(s[..|s| - 1]);
      var r := TrimEnd(s);
      assert s[|r|..] == s[..|s| - 1][|r|..] + [s[|s| - 1]];
    }
  }

  /** `TrimEnd` adds no character. */
  lemma TrimEndKeepsOut(s: string, c: char)
    requires c !in s
    ensures c !in TrimEnd(s)
  {
    TrimEndIsPrefix(s);
  }

  /** `sub` occurs in `s` starting at index `i`. */
  predicate OccursAt(s: string, sub: string, i: int) {
    0 <= i && i + |sub| <= |s| && s[i..i + |sub|] == sub
  }

  /** `s.includes(sub)`. Every string includes the empty string, and no
      string includes one longer than itself. */
  function Contains(s: string, sub: string): (b: bool)
    ensures sub == [] ==> b
    ensures b ==> |sub| <= |s|
  {
    assert sub == [] ==> OccursAt(s, sub, 0);
    exists i :: 0 <= i <= |s| - |sub| && OccursAt(s, sub, i)
  }

  /** A string contains every one of its infixes. */
  lemma ContainsInfix(before: string, sub: string, after: string)
    ensures Contains(before + sub + after, sub)
  {
    var s := before + sub + after;
    assert s[|before|..|before| + |sub|] == sub;
    assert OccursAt(s, sub, |before|);
  }

  /** `s.split(sep)` for a non-empty separator: the pieces between the
      leftmost non-overlapping occurrences of `sep`, scanning left to right. */
  function Split(s: string, sep: string): (parts: seq<string>)
    requires |sep| > 0
    ensures |parts| >= 1
    decreases |s|
  {
    if |s| < |sep| then [s]
    else if s[..|sep|] == sep then [""] + Split(s[|sep|..], sep)
    else
      var rest := Split(s[1..], sep);
      [[s[0]] + rest[0]] + rest[1..]
  }

  /** The first piece of a split is a prefix of the input. */
  lemma {:induction false} SplitHeadIsPrefix(s: string, sep: string)
    requires |sep| > 0
    ensures var head := Split(s, sep)[0];
      |head| <= |s| && head == s[..|head|]
    decreases |s|
  {
    if |s| >= |sep| && s[..|sep|] != sep {
      SplitHeadIsPrefix(s[1..], sep);
    }
  }

  /** `parts.join(sep)`. */
  function Join(parts: seq<string>, sep: string): string
    decreases |parts|
  {
    if |parts| == 0 then ""
    else if |parts| == 1 then parts[0]
    else parts[0] + sep + Join(parts[1..], sep)
  }

  lemma JoinThree(a: string, b: string, c: string, sep: string)
    ensures Join([a, b, c], sep) == a + sep + b + sep + c
  {
    assert [a, b, c][1..] == [b, c];
    assert [b, c][1..] == [c];
    assert Join([c], sep) == c;
    assert Join([b, c], sep) == b + sep + c;
    assert Join([a, b, c], sep) == a + sep + (b + sep + c);
  }

  lemma JoinFour(a: string, b: string, c: string, d: string, sep: string)
    ensures Join([a, b, c, d], sep) == a + sep + b + sep + c + sep + d
  {
    assert [a, b, c, d][1..] == [b, c, d];
    JoinThree(b, c, d, sep);
    assert Join([a, b, c, d], sep) == a + sep + (b + sep + c + sep + d);
  }

  /** `xs.filter(Boolean)`: the non-empty strings of `xs`, in order. */
  function DropEmpty(xs: seq<string>): (r: seq<string>)
    ensures |r| <= |xs|
    ensures forall k :: 0 <= k < |r| ==> r[k] != ""
    ensures forall x :: x in r <==> x in xs && x != ""
    decreases |xs|
  {
    if xs == [] then []
    else (if xs[0] == "" then [] else [xs[0]]) + DropEmpty(xs[1..])
  }

  // ---------------------------------------------------------------------
  // Trim

  lemma {:induction false} TrimEndDropsWhitespaceTail(s: string, tail: string)
    requires AllWhitespace(tail)
    ensures TrimEnd(s + tail) == TrimEnd(s)
    decreases |tail|
  {
    if tail != [] {
      var t := tail[..|tail| - 1];
      assert (s + tail)[..|s + tail| - 1] == s + t;
      TrimEndDropsWhitespaceTail(s, t);
    } else {
      assert s + tail == s;
    }
  }

  /** Trailing trimming never reaches past a non-whitespace character. */
  lemma {:induction false} TrimEndStopsInSuffix(a: string, b: string)
    requires !AllWhitespace(b)
    ensures TrimEnd(a + b) == a + TrimEnd(b)
    decreases |b|
  {
    var i :| 0 <= i < |b| && !IsWhitespace(b[i]);
    if IsWhitespace(b[|b| - 1]) {
      var b' := b[..|b| - 1];
      assert !IsWhitespace(b'[i]);
      assert (a + b)[..|a + b| - 1] == a + b';
      TrimEndStopsInSuffix(a, b');
    }
  }

  /** Leading trimming eats a whitespace-only prefix entirely. */
  lemma {:induction false} TrimStartSkipsWhitespaceHead(a: string, b: string)
    requires AllWhitespace(a)
    ensures TrimStart(a + b) == TrimStart(b)
    decreases |a|
  {
    if a != [] {
      assert (a + b)[1..] == a[1..] + b;
      TrimStartSkipsWhitespaceHead(a[1..], b);
    } else {
      assert a + b == b;
    }
  }

  /** Leading trimming of `a + b` stays inside `a` once `a` holds a
      non-whitespace character. */
  lemma {:induction false} TrimStartStopsInPrefix(a: string, b: string)
    requires !AllWhitespace(a)
    ensures TrimStart(a + b) == TrimStart(a) + b
    decreases |a|
  {
    if IsWhitespace(a[0]) {
      var i :| 0 <= i < |a| && !IsWhitespace(a[i]);
      assert !IsWhitespace(a[1..][i - 1]);
      assert (a + b)[1..] == a[1..] + b;
      TrimStartStopsInPrefix(a[1..], b);
    }
  }

  lemma TrimOfTrimmed(s: string)
    requires s != [] && !IsWhitespace(s[0]) && !IsWhitespace(s[|s| - 1])
    ensures Trim(s) == s
  {
  }

  // ---------------------------------------------------------------------
  // Split and Join

  /** A split of a string that starts with the separator. */
  lemma SplitAtSeparator(s: string, sep: string)
    requires |sep| > 0 && |s| >= |sep| && s[..|sep|] == sep
    ensures Split(s, sep) == [""] + Split(s[|sep|..], sep)
  {
  }

  lemma JoinCons(p: string, rest: seq<string>, sep: string)
    requires |rest| >= 1
    ensures Join([p] + rest, sep) == p + sep + Join(rest, sep)
  {
    assert ([p] + rest)[1..] == rest;
  }

  lemma JoinGrowHead(x: char, rest: seq<string>, sep: string)
    requires |rest| >= 1
    ensures Join([[x] + rest[0]] + rest[1..], sep) == [x] + Join(rest, sep)
  {
    var parts := [[x] + rest[0]] + rest[1..];
    if |rest| > 1 {
      assert parts[1..] == rest[1..];
      AppendAssoc([x], rest[0], sep + Join(rest[1..], sep));
    }
  }

  /** Joining the pieces of a split restores the original string. */
  lemma {:induction false} SplitJoin(s: string, sep: string)
    requires |sep| > 0
    ensures Join(Split(s, sep), sep) == s
    decreases |s|
  {
    if |s| < |sep| {
    } else if s[..|sep|] == sep {
      SplitJoin(s[|sep|..], sep);
      SplitAtSeparator(s, sep);
      JoinCons("", Split(s[|sep|..], sep), sep);
      EmptyAppend("", sep);
      TakeDrop(s, |sep|);
    } else {
      SplitJoin(s[1..], sep);
      SplitNoLeadingSeparator(s, sep);
      JoinGrowHead(s[0], Split(s[1..], sep), sep);
      Uncons(s);
    }
  }

  lemma ShorterThanSeparator(s: string, sep: string)
    requires |s| < |sep|
    ensures !Contains(s, sep)
  {
  }

  /** No piece of `parts` contains `sep`. */
  predicate NoneContains(parts: seq<string>, sep: string) {
    forall k :: 0 <= k < |parts| ==> !Contains(parts[k], sep)
  }

  /** A piece grown by one character in front still avoids the separator
      when no occurrence starts at that character. */
  lemma ConsAvoidsSeparator(x: char, r: string, sep: string)
    requires |sep| > 0 && !Contains(r, sep)
    requires !OccursAt([x] + r, sep, 0)
    ensures !Contains([x] + r, sep)
  {
    var h := [x] + r;
    if Contains(h, sep) {
      var i :| 0 <= i <= |h| - |sep| && OccursAt(h, sep, i);
      assert i != 0;
      assert h[i..i + |sep|] == r[i - 1..i - 1 + |sep|];
      assert OccursAt(r, sep, i - 1);
    }
  }

  lemma PrefixNoLeadingSeparator(head: string, s: string, sep: string)
    requires |sep| > 0 && |s| >= |sep| && s[..|sep|] != sep
    requires |head| <= |s| && head == s[..|head|]
    ensures !OccursAt(head, sep, 0)
  {
  }

  lemma NoneContainsCons(head: string, rest: seq<string>, sep: string)
    requires !Contains(head, sep) && NoneContains(rest, sep)
    ensures NoneContains([head] + rest, sep)
  {
    var parts := [head] + rest;
    forall k | 0 <= k < |parts|
      ensures !Contains(parts[k], sep)
    {
      if k > 0 {
        assert parts[k] == rest[k - 1];
      }
    }
  }

  lemma NoneContainsTail(parts: seq<string>, sep: string)
    requires |parts| >= 1 && NoneContains(parts, sep)
    ensures NoneContains(parts[1..], sep)
  {
    forall k | 0 <= k < |parts| - 1
      ensures !Contains(parts[1..][k], sep)
    {
      assert parts[1..][k] == parts[k + 1];
    }
  }

  /** No piece of a split contains the separator. */
  lemma {:induction false} SplitPiecesAvoidSeparator(s: string, sep: string)
    requires |sep| > 0
    ensures NoneContains(Split(s, sep), sep)
    decreases |s|
  {
    if |s| < |sep| {
      ShorterThanSeparator(s, sep);
      NoneContainsCons(s, [], sep);
    } else if s[..|sep|] == sep {
      SplitPiecesAvoidSeparator(s[|sep|..], sep);
      ShorterThanSeparator("", sep);
      SplitAtSeparator(s, sep);
      NoneContainsCons("", Split(s[|sep|..], sep), sep);
    } else {
      var rest := Split(s[1..], sep);
      SplitPiecesAvoidSeparator(s[1..], sep);
      SplitHeadIsPrefix(s[1..], sep);
      SplitNoLeadingSeparator(s, sep);
      var head := [s[0]] + rest[0];
      assert head == s[..|head|];
      PrefixNoLeadingSeparator(head, s, sep);
      ConsAvoidsSeparator(s[0], rest[0], sep);
      NoneContainsTail(rest, sep);
      NoneContainsCons(head, rest[1..], sep);
    }
  }

  lemma ContainsChar(s: string, c: char)
    ensures Contains(s, [c]) <==> c in s
  {
    if c in s {
      var i :| 0 <= i < |s| && s[i] == c;
      assert s[i..i + 1] == [c];
      assert OccursAt(s, [c], i);
    }
    if Contains(s, [c]) {
      var i :| 0 <= i <= |s| - 1 && OccursAt(s, [c], i);
      assert s[i] == s[i..i + 1][0];
    }
  }

  /** A split on one character: its pieces hold no copy of the character
      and, joined with it, give back the input. */
  lemma SplitOnChar(s: string, c: char)
    ensures forall k :: 0 <= k < |Split(s, [c])| ==> c !in Split(s, [c])[k]
    ensures Join(Split(s, [c]), [c]) == s
  {
    SplitJoin(s, [c]);
    SplitPiecesAvoidSeparator(s, [c]);
    forall k | 0 <= k < |Split(s, [c])|
      ensures c !in Split(s, [c])[k]
    {
      ContainsChar(Split(s, [c])[k], c);
    }
  }

  /** A string free of a one-character separator splits into itself. */
  lemma {:induction false} SplitWithoutSeparator(a: string, c: char)
    requires c !in a
    ensures Split(a, [c]) == [a]
    decreases |a|
  {
    if a != [] {
      assert a[..1] == [a[0]];
      SplitWithoutSeparator(a[1..], c);
      assert a == [a[0]] + a[1..];
    }
  }

  /** One step of a split on a one-character separator, stated on a
      string given as its first character and the rest. */
  lemma SplitCons(x: char, t: string, c: char)
    ensures x == c ==> Split([x] + t, [c]) == [""] + Split(t, [c])
    ensures x != c ==> Split([x] + t, [c]) == [[x] + Split(t, [c])[0]] + Split(t, [c])[1..]
  {
    assert ([x] + t)[..1] == [x];
    assert ([x] + t)[1..] == t;
  }

  /** Growing the first piece of `left + right` only touches `left`. */
  lemma PrependToHead(x: char, left: seq<string>, right: seq<string>)
    requires |left| >= 1
    ensures [[x] + (left + right)[0]] + (left + right)[1..]
         == ([[x] + left[0]] + left[1..]) + right
  {
    AppendFront(left, right);
    ConsAssoc([x] + left[0], left[1..], right);
  }

  lemma SplitAroundSep(a: string, c: char, b: string)
    requires Split(a + [c] + b, [c]) == Split(a, [c]) + Split(b, [c])
    ensures Split([c] + (a + [c] + b), [c]) == Split([c] + a, [c]) + Split(b, [c])
  {
    SplitCons(c, a + [c] + b, c);
    SplitCons(c, a, c);
    ConsAssoc("", Split(a, [c]), Split(b, [c]));
  }

  lemma SplitAroundOther(x: char, a: string, c: char, b: string)
    requires x != c
    requires Split(a + [c] + b, [c]) == Split(a, [c]) + Split(b, [c])
    ensures Split([x] + (a + [c] + b), [c]) == Split([x] + a, [c]) + Split(b, [c])
  {
    SplitCons(x, a + [c] + b, c);
    SplitCons(x, a, c);
    PrependToHead(x, Split(a, [c]), Split(b, [c]));
  }

  /** Splitting on a one-character separator distributes over an
      occurrence of that separator. */
  lemma {:induction false} SplitAround(a: string, c: char, b: string)
    ensures Split(a + [c] + b, [c]) == Split(a, [c]) + Split(b, [c])
    decreases |a|
  {
    if a == [] {
      EmptyAppend(a, [c]);
      SplitCons(c, b, c);
      assert Split(a, [c]) == [""];
      EmptyAppend<string>([], Split(b, [c]));
    } else {
      SplitAround(a[1..], c, b);
      if a[0] == c {
        SplitAroundSep(a[1..], c, b);
      } else {
        SplitAroundOther(a[0], a[1..], c, b);
      }
      Uncons(a);
      ConsAppend(a[0], a[1..], [c], b);
    }
  }

  /** Splitting a join on a one-character separator that occurs in none of
      the pieces gives the pieces back. */
  lemma {:induction false} JoinSplit(parts: seq<string>, c: char)
    requires |parts| >= 1
    requires forall k :: 0 <= k < |parts| ==> c !in parts[k]
    ensures Split(Join(parts, [c]), [c]) == parts
    decreases |parts|
  {
    if |parts| == 1 {
      SplitWithoutSeparator(parts[0], c);
    } else {
      assert forall k :: 0 <= k < |parts[1..]| ==> parts[1..][k] == parts[k + 1];
      JoinSplit(parts[1..], c);
      SplitAround(parts[0], c, Join(parts[1..], [c]));
      SplitWithoutSeparator(parts[0], c);
      Uncons(parts);
    }
  }

  /** `SplitAtSeparator` for a string written as the separator and the
      rest. */
  lemma SplitLeadingSeparator(sep: string, b: string)
    requires |sep| > 0
    ensures Split(sep + b, sep) == [""] + Split(b, sep)
  {
    assert (sep + b)[..|sep|] == sep;
    assert (sep + b)[|sep|..] == b;
    SplitAtSeparator(sep + b, sep);
  }

  /** A split of a string that does not start with the separator grows
      the first piece of the split of its tail. */
  lemma SplitNoLeadingSeparator(s: string, sep: string)
    requires |sep| > 0 && |s| >= |sep| && s[..|sep|] != sep
    ensures Split(s, sep) == [[s[0]] + Split(s[1..], sep)[0]] + Split(s[1..], sep)[1..]
  {
  }

  /** When no occurrence of `sep` starts inside `a`, none starts at the
      front of `a + sep + b` either, and the same holds one character on. */
  lemma NoEarlySeparator(a: string, sep: string, b: string)
    requires |sep| > 0 && a != []
    requires !Contains(a + sep[..|sep| - 1], sep)
    ensures |a + sep + b| >= |sep| && (a + sep + b)[..|sep|] != sep
    ensures !Contains(a[1..] + sep[..|sep| - 1], sep)
    ensures (a + sep + b)[1..] == a[1..] + sep + b
  {
    var s := a + sep + b;
    var p := a + sep[..|sep| - 1];
    assert p[..|sep|] == s[..|sep|];
    if s[..|sep|] == sep {
      assert OccursAt(p, sep, 0);
    }
    var a' := a[1..];
    var p' := a' + sep[..|sep| - 1];
    if Contains(p', sep) {
      var i :| 0 <= i <= |p'| - |sep| && OccursAt(p', sep, i);
      assert p[i + 1..i + 1 + |sep|] == p'[i..i + |sep|];
      assert OccursAt(p, sep, i + 1);
    }
  }

  lemma GrowFirstPiece(x: char, a: string, rest: seq<string>)
    ensures [[x] + ([a] + rest)[0]] + ([a] + rest)[1..] == [[x] + a] + rest
  {
    assert ([a] + rest)[1..] == rest;
  }

  /** The leftmost occurrence of `sep` in `a + sep + b` is the one after
      `a` when no occurrence starts inside `a`. */
  lemma {:induction false} SplitAtFirst(a: string, sep: string, b: string)
    requires |sep| > 0
    requires !Contains(a + sep[..|sep| - 1], sep)
    ensures Split(a + sep + b, sep) == [a] + Split(b, sep)
    decreases |a|
  {
    if a == [] {
      EmptyAppend(a, sep);
      SplitLeadingSeparator(sep, b);
    } else {
      NoEarlySeparator(a, sep, b);
      SplitAtFirst(a[1..], sep, b);
      SplitNoLeadingSeparator(a + sep + b, sep);
      assert (a + sep + b)[0] == a[0];
      GrowFirstPiece(a[0], a[1..], Split(b, sep));
      Uncons(a);
    }
  }

  // ---------------------------------------------------------------------
  // filter(Boolean)

  lemma {:induction false} DropEmptyAppend(xs: seq<string>, ys: seq<string>)
    ensures DropEmpty(xs + ys) == DropEmpty(xs) + DropEmpty(ys)
    decreases |xs|
  {
    if xs == [] {
      assert xs + ys == ys;
    } else {
      assert (xs + ys)[1..] == xs[1..] + ys;
      DropEmptyAppend(xs[1..], ys);
    }
  }

  lemma {:induction false} DropEmptyKeepsNonEmpty(xs: seq<string>)
    requires forall k :: 0 <= k < |xs| ==> xs[k] != ""
    ensures DropEmpty(xs) == xs
    decreases |xs|
  {
    if xs != [] {
      DropEmptyKeepsNonEmpty(xs[1..]);
      assert xs == [xs[0]] + xs[1..];
    }
  }
}

=== FILE: PrDownloader.dfy ===
/** The classifier for lines printed by the pr-downloader subprocess
    (`processLine` and `isProgressMessage` of the content API). */
module PrDownloader {
  import opened Wrappers
  import opened Sequences
  import opened JsString
  import opened JsNumber

  const ProgressType := "Progress"

  /** A classified line. `None` fields are JavaScript `NaN`s; the percent is
      the integer `parseInt` read, before the floating-point `/ 100`. */
  datatype Message =
    | Generic(kind: string, parts: seq<string>)
    | Progress(parts: seq<string>, percent: Option<int>, currentBytes: Option<int>, totalBytes: int)
  {
    /** The `type` field of the message object. */
    function Type(): string {
      if Generic? then kind else ProgressType
    }
  }

  /** `line.split(" ").filter(Boolean)`: the tokens between single space
      characters; other whitespace stays inside tokens. */
  function Tokens(line: string): (parts: seq<string>)
    ensures forall k :: 0 <= k < |parts| ==> parts[k] != "" && ' ' !in parts[k]
  {
    var pieces := Split(line, " ");
    SplitOnChar(line, ' ');
    var parts := DropEmpty(pieces);
    assert forall k :: 0 <= k < |parts| ==> parts[k] in pieces;
    parts
  }

  /** `processLine` can read `parts[0]`: the line is empty (and returns
      before splitting) or has at least one token. A line of spaces only
      makes the source fault on `type[0]`. */
  predicate Classifiable(line: string) {
    line == "" || Tokens(line) != []
  }

  /** The message type named by the first token: one leading `[` and the
      last character, whatever it is, are cut off (`type.slice(1, -1)`). */
  function MessageType(token: string): (t: string)
    ensures token == [] || token[0] != '[' ==> t == token
    ensures |token| >= 2 && token[0] == '[' ==> token == [token[0]] + t + [token[|token| - 1]]
    ensures token == "[" ==> t == ""
  {
    if |token| > 0 && token[0] == '[' then
      if |token| >= 2 then token[1..|token| - 1] else ""
    else token
  }

  /** The `Progress` branch: the percent from `parts[1]`, the byte counts
      from the `/`-separated last token. A missing, non-numeric or zero
      total drops the line. */
  function ParseProgress(parts: seq<string>): (r: Option<Message>)
    requires |parts| >= 1
    ensures r.Some? ==> r.value.Progress? && r.value.parts == parts && r.value.totalBytes != 0
  {
    var percent := if |parts| >= 2 then ParseInt(parts[1]) else None;
    var bytes := Split(parts[|parts| - 1], "/");
    var currentBytes := ParseInt(bytes[0]);
    var totalBytes := if |bytes| >= 2 then ParseInt(bytes[1]) else None;
    match totalBytes
    case None => None
    case Some(total) =>
      if total == 0 then None
      else Some(Progress(parts, percent, currentBytes, total))
  }

  /** `processLine`. */
  function ProcessLine(line: string): (r: Option<Message>)
    requires Classifiable(line)
    ensures line == "" ==> r == None
    ensures r.Some? ==> r.value.parts == Tokens(line)
    ensures r.Some? ==> (IsProgressMessage(r.value) <==> r.value.Progress?)
    ensures r.Some? && r.value.Progress? ==> r.value.totalBytes != 0
    ensures r.None? && line != "" ==> MessageType(Tokens(line)[0]) == ProgressType
    ensures line != "" && MessageType(Tokens(line)[0]) == ProgressType ==>
      r == ParseProgress(Tokens(line))
    ensures line != "" && MessageType(Tokens(line)[0]) != ProgressType ==>
      r == Some(Generic(MessageType(Tokens(line)[0]), Tokens(line)))
  {
    if line == "" then None
    else
      var parts := Tokens(line);
      var kind := MessageType(parts[0]);
      if kind == ProgressType then ParseProgress(parts)
      else Some(Generic(kind, parts))
  }

  /** `isProgressMessage`: true of every progress message, and of a generic
      message only when its type is literally `Progress`. */
  function IsProgressMessage(message: Message): (b: bool)
    ensures message.Progress? ==> b
    ensures message.Generic? ==> (b <==> message.kind == ProgressType)
  {
    message.Type() == ProgressType
  }

  // ---------------------------------------------------------------------
  // Tokens

  /** Tokenising distributes over a space. */
  lemma TokensAround(a: string, b: string)
    ensures Tokens(a + " " + b) == Tokens(a) + Tokens(b)
  {
    SplitAround(a, ' ', b);
    DropEmptyAppend(Split(a, " "), Split(b, " "));
  }

  lemma TokensOfWord(w: string)
    requires w != "" && ' ' !in w
    ensures Tokens(w) == [w]
  {
    SplitWithoutSeparator(w, ' ');
  }

  /** Tokenising inverts joining non-empty, space-free words with spaces. */
  lemma {:induction false} TokensOfJoin(words: seq<string>)
    requires |words| >= 1
    requires forall k :: 0 <= k < |words| ==> words[k] != "" && ' ' !in words[k]
    ensures Tokens(Join(words, " ")) == words
    decreases |words|
  {
    TokensOfWord(words[0]);
    if |words| > 1 {
      TokensOfJoin(words[1..]);
      TokensAround(words[0], Join(words[1..], " "));
      assert words == [words[0]] + words[1..];
    }
  }

  /** A leading space adds no token. */
  lemma TokensAfterSpace(rest: string)
    ensures Tokens([' '] + rest) == Tokens(rest)
  {
    SplitCons(' ', rest, ' ');
    DropEmptyAppend([""], Split(rest, " "));
    assert DropEmpty([""]) == [];
  }

  /** A leading character other than a space starts a token. */
  lemma TokensAfterWordChar(x: char, rest: string)
    requires x != ' '
    ensures Tokens([x] + rest) != []
  {
    SplitCons(x, rest, ' ');
    var pieces := Split(rest, " ");
    var head := [x] + pieces[0];
    DropEmptyAppend([head], pieces[1..]);
    assert DropEmpty([head]) == [head];
  }

  /** A line has no tokens exactly when it is made of spaces only. */
  lemma {:induction false} NoTokensIffBlank(line: string)
    ensures Tokens(line) == [] <==> forall i :: 0 <= i < |line| ==> line[i] == ' '
    decreases |line|
  {
    if line != [] {
      var rest := line[1..];
      NoTokensIffBlank(rest);
      Uncons(line);
      if line[0] == ' ' {
        TokensAfterSpace(rest);
        assert forall i :: 0 <= i < |rest| ==> rest[i] == line[i + 1];
      } else {
        TokensAfterWordChar(line[0], rest);
      }
    }
  }

  // ---------------------------------------------------------------------
  // Classification

  /** The bracket rule: a bracketed type loses its brackets. */
  lemma BracketedType(ty: string)
    ensures MessageType("[" + ty + "]") == ty
  {
    var t := "[" + ty + "]";
    assert t[1..|t| - 1] == ty;
  }

  /** Classifying a line of well-formed words: the type comes from the
      first word, and only a `Progress` type takes the byte-count path. */
  lemma ClassifyWords(words: seq<string>)
    requires |words| >= 1
    requires forall k :: 0 <= k < |words| ==> words[k] != "" && ' ' !in words[k]
    ensures Classifiable(Join(words, " "))
    ensures ProcessLine(Join(words, " "))
         == if MessageType(words[0]) == ProgressType then ParseProgress(words)
            else Some(Generic(MessageType(words[0]), words))
  {
    TokensOfJoin(words);
    var line := Join(words, " ");
    assert line != "" by {
      if |words| > 1 {
        assert line == words[0] + " " + Join(words[1..], " ");
      }
    }
  }

  /** A generic line is classified as its type and its tokens. */
  lemma GenericLine(ty: string, words: seq<string>)
    requires ty != ProgressType && ' ' !in ty
    requires forall k :: 0 <= k < |words| ==> words[k] != "" && ' ' !in words[k]
    ensures var first := "[" + ty + "]";
      ProcessLine(Join([first] + words, " ")) == Some(Generic(ty, [first] + words))
  {
    var first := "[" + ty + "]";
    var parts := [first] + words;
    assert ' ' !in first;
    forall k | 0 <= k < |parts|
      ensures parts[k] != "" && ' ' !in parts[k]
    {
      if k > 0 {
        assert parts[k] == words[k - 1];
      }
    }
    BracketedType(ty);
    assert MessageType(parts[0]) == ty;
    ClassifyWords(parts);
  }

  /** Rendering of a pr-downloader progress line: the tag, the percent,
      free-form words, then `current/total`. */
  function ProgressLine(percent: nat, middle: seq<string>, lastToken: string): seq<string> {
    ["[Progress]", DecimalString(percent)] + middle + [lastToken]
  }

  lemma DecimalStringIsWord(n: nat)
    ensures ' ' !in DecimalString(n) && '/' !in DecimalString(n)
  {
    var s := DecimalString(n);
    forall i | 0 <= i < |s|
      ensures s[i] != ' ' && s[i] != '/'
    {
      assert IsRadixDigit(s[i], 10);
    }
  }

  lemma SlashPair(c: string, t: string)
    requires '/' !in c && '/' !in t
    ensures Split(c + "/" + t, "/") == [c, t]
  {
    assert c + "/" + t == c + ['/'] + t;
    SplitAround(c, '/', t);
    SplitWithoutSeparator(c, '/');
    SplitWithoutSeparator(t, '/');
  }

  lemma SlashTriple(c: string, t: string, rest: string)
    requires '/' !in c && '/' !in t
    ensures var bytes := Split(c + "/" + t + "/" + rest, "/");
      |bytes| >= 2 && bytes[0] == c && bytes[1] == t
  {
    assert c + "/" + t + "/" + rest == c + ['/'] + (t + ['/'] + rest);
    SplitAround(c, '/', t + ['/'] + rest);
    SplitAround(t, '/', rest);
    SplitWithoutSeparator(c, '/');
    SplitWithoutSeparator(t, '/');
  }

  /** The byte counts come from the first two `/`-separated pieces of the
      last token. */
  lemma ProgressFromPieces(parts: seq<string>, c: string, t: string, n: int)
    requires |parts| >= 1
    requires var bytes := Split(parts[|parts| - 1], "/"); |bytes| >= 2 && bytes[0] == c && bytes[1] == t
    requires ParseInt(t) == Some(n)
    ensures ParseProgress(parts)
      == if n == 0 then None
         else Some(Progress(parts, if |parts| >= 2 then ParseInt(parts[1]) else None, ParseInt(c), n))
  {
  }

  /** The `Progress` branch on any tokens whose last token is `c/t` with a
      numeric total: the total is `t`'s number, and the percent and the
      current count are whatever `parseInt` made of `parts[1]` and `c` —
      `NaN` (`None`) included, since neither is checked. A zero total drops
      the line. */
  lemma ProgressFields(parts: seq<string>, c: string, t: string, n: int)
    requires |parts| >= 1 && parts[|parts| - 1] == c + "/" + t
    requires '/' !in c && '/' !in t
    requires ParseInt(t) == Some(n)
    ensures ParseProgress(parts)
      == if n == 0 then None
         else Some(Progress(parts, if |parts| >= 2 then ParseInt(parts[1]) else None, ParseInt(c), n))
  {
    SlashPair(c, t);
    ProgressFromPieces(parts, c, t, n);
  }

  /** Only the text between the first and the second `/` is read as the
      total; anything after a second `/` is ignored. */
  lemma ExtraSlashesIgnored(parts: seq<string>, c: string, t: string, rest: string, n: int)
    requires |parts| >= 1 && parts[|parts| - 1] == c + "/" + t + "/" + rest
    requires '/' !in c && '/' !in t
    requires ParseInt(t) == Some(n)
    ensures ParseProgress(parts)
      == if n == 0 then None
         else Some(Progress(parts, if |parts| >= 2 then ParseInt(parts[1]) else None, ParseInt(c), n))
  {
    SlashTriple(c, t, rest);
    ProgressFromPieces(parts, c, t, n);
  }

  /** A total that `parseInt` reads as `NaN` drops the line, whatever the
      current count and the percent are. */
  lemma NaNTotalDrops(parts: seq<string>, c: string, t: string)
    requires |parts| >= 1 && parts[|parts| - 1] == c + "/" + t
    requires '/' !in c && '/' !in t
    requires ParseInt(t) == None
    ensures ParseProgress(parts) == None
  {
    SlashPair(c, t);
  }

  /** The same drop for a last token `c/t/rest`: only `t` is read as the
      total, so a `NaN` there drops the line whatever `rest` holds. */
  lemma NaNTotalExtraSlash(parts: seq<string>, c: string, t: string, rest: string)
    requires |parts| >= 1 && parts[|parts| - 1] == c + "/" + t + "/" + rest
    requires '/' !in c && '/' !in t
    requires ParseInt(t) == None
    ensures ParseProgress(parts) == None
  {
    SlashTriple(c, t, rest);
  }

  /** A current count that is not a number does not stop the line: the
      message is kept with a `NaN` current count. */
  lemma CurrentBytesUnchecked(parts: seq<string>, c: string, t: string, n: int)
    requires |parts| >= 1 && parts[|parts| - 1] == c + "/" + t
    requires '/' !in c && '/' !in t
    requires ParseInt(c) == None && ParseInt(t) == Some(n) && n != 0
    ensures ParseProgress(parts).Some? && ParseProgress(parts).value.currentBytes == None
  {
    ProgressFields(parts, c, t, n);
  }

  /** A rendered progress line is classified through the byte-count path. */
  lemma ProgressLineClassified(percent: nat, middle: seq<string>, lastToken: string)
    requires forall k :: 0 <= k < |middle| ==> middle[k] != "" && ' ' !in middle[k]
    requires lastToken != "" && ' ' !in lastToken
    ensures var parts := ProgressLine(percent, middle, lastToken);
      && Classifiable(Join(parts, " "))
      && ProcessLine(Join(parts, " ")) == ParseProgress(parts)
  {
    var parts := ProgressLine(percent, middle, lastToken);
    DecimalStringIsWord(percent);
    assert forall k :: 0 <= k < |parts| ==> parts[k] != "" && ' ' !in parts[k];
    BracketedType("Progress");
    assert MessageType(parts[0]) == ProgressType;
    ClassifyWords(parts);
  }

  lemma ProgressLineEnds(percent: nat, middle: seq<string>, lastToken: string)
    ensures var parts := ProgressLine(percent, middle, lastToken);
      && |parts| >= 3
      && parts[1] == DecimalString(percent)
      && parts[|parts| - 1] == lastToken
  {
  }

  /** Round trip for progress lines: the classifier reads back the numbers
      of a rendered progress line, and drops it when the total is zero. */
  lemma ProgressLineRoundTrip(percent: nat, middle: seq<string>, current: nat, total: nat)
    requires forall k :: 0 <= k < |middle| ==> middle[k] != "" && ' ' !in middle[k]
    ensures var parts := ProgressLine(percent, middle, DecimalString(current) + "/" + DecimalString(total));
      && Classifiable(Join(parts, " "))
      && ProcessLine(Join(parts, " "))
        == if total == 0 then None
           else Some(Progress(parts, Some(percent as int), Some(current as int), total))
  {
    var c, t := DecimalString(current), DecimalString(total);
    var parts := ProgressLine(percent, middle, c + "/" + t);
    DecimalStringIsWord(current);
    DecimalStringIsWord(total);
    assert ' ' !in c + "/" + t;
    ProgressLineClassified(percent, middle, c + "/" + t);
    ProgressLineEnds(percent, middle, c + "/" + t);
    SlashPair(c, t);
    ParseIntOfDecimal(percent);
    ParseIntOfDecimal(current);
    ParseIntOfDecimal(total);
  }

  /** A progress line whose total does not start with a number is dropped. */
  lemma NonNumericTotalDropped(percent: nat, middle: seq<string>, current: nat, junk: string)
    requires forall k :: 0 <= k < |middle| ==> middle[k] != "" && ' ' !in middle[k]
    requires junk != "" && ' ' !in junk && '/' !in junk
    requires !IsWhitespace(junk[0]) && !IsDecimalDigit(junk[0]) && junk[0] != '-' && junk[0] != '+'
    ensures var line := Join(ProgressLine(percent, middle, DecimalString(current) + "/" + junk), " ");
      Classifiable(line) && ProcessLine(line) == None
  {
    var c := DecimalString(current);
    DecimalStringIsWord(current);
    assert ' ' !in c + "/" + junk;
    ProgressLineClassified(percent, middle, c + "/" + junk);
    SlashPair(c, junk);
  }

  /** A progress line with no `/` in its last token has no total and is
      dropped, whatever else it holds. */
  lemma MissingTotalDropped(line: string)
    requires Classifiable(line) && line != ""
    requires MessageType(Tokens(line)[0]) == ProgressType
    requires '/' !in Tokens(line)[|Tokens(line)| - 1]
    ensures ProcessLine(line) == None
  {
    SplitWithoutSeparator(Tokens(line)[|Tokens(line)| - 1], '/');
  }

  // ---------------------------------------------------------------------
  // Sample lines

  lemma ExampleProgressParts()
    ensures ProgressLine(42, ["..."], DecimalString(1000) + "/" + DecimalString(2000))
         == ["[Progress]", "42", "...", "1000/2000"]
  {
    assert DecimalString(42) == "42";
    assert DecimalString(1000) == "1000";
    assert DecimalString(2000) == "2000";
    assert "1000" + "/" + "2000" == "1000/2000";
  }

  lemma ExampleProgressText()
    ensures Join(["[Progress]", "42", "...", "1000/2000"], " ") == "[Progress] 42 ... 1000/2000"
  {
    JoinFour("[Progress]", "42", "...", "1000/2000", " ");
  }

  /** `[Progress] 42 ... 1000/2000` reports 42 percent of 1000 out of 2000
      bytes. */
  lemma ExampleProgress(line: string)
    requires line == "[Progress] 42 ... 1000/2000"
    ensures ProcessLine(line)
         == Some(Progress(["[Progress]", "42", "...", "1000/2000"], Some(42), Some(1000), 2000))
  {
    ExampleProgressParts();
    ExampleProgressText();
    ProgressLineRoundTrip(42, ["..."], 1000, 2000);
  }

  lemma ExampleDroppedParts()
    ensures ProgressLine(10, ["..."], DecimalString(500) + "/" + "abc")
         == ["[Progress]", "10", "...", "500/abc"]
  {
    assert DecimalString(10) == "10";
    assert DecimalString(500) == "500";
    assert "500" + "/" + "abc" == "500/abc";
  }

  lemma ExampleDroppedText()
    ensures Join(["[Progress]", "10", "...", "500/abc"], " ") == "[Progress] 10 ... 500/abc"
  {
    JoinFour("[Progress]", "10", "...", "500/abc", " ");
  }

  /** `[Progress] 10 ... 500/abc` has a non-numeric total and is dropped. */
  lemma ExampleDroppedProgress(line: string)
    requires line == "[Progress] 10 ... 500/abc"
    ensures ProcessLine(line) == None
  {
    ExampleDroppedParts();
    ExampleDroppedText();
    NonNumericTotalDropped(10, ["..."], 500, "abc");
  }

  lemma ExampleGenericText()
    ensures Join(["[" + "Other" + "]"] + ["foo", "bar"], " ") == "[Other] foo bar"
  {
    assert "[" + "Other" + "]" == "[Other]";
    assert ["[" + "Other" + "]"] + ["foo", "bar"] == ["[Other]", "foo", "bar"];
    JoinThree("[Other]", "foo", "bar", " ");
  }

  /** `[Other] foo bar` is a generic message of type `Other`. */
  lemma ExampleGeneric(line: string)
    requires line == "[Other] foo bar"
    ensures ProcessLine(line) == Some(Generic("Other", ["[Other]", "foo", "bar"]))
  {
    GenericLine("Other", ["foo", "bar"]);
    ExampleGenericText();
    assert "[" + "Other" + "]" == "[Other]";
    assert ["[" + "Other" + "]"] + ["foo", "bar"] == ["[Other]", "foo", "bar"];
  }
}

=== FILE: Sequences.dfy ===
/** Small facts of sequence algebra, stated once over any element type so
    that proofs about string functions can cite them instead of asking the
    solver for extensional reasoning next to recursive definitions. */
module Sequences {

  lemma ConsAssoc<T>(x: T, left: seq<T>, right: seq<T>)
    ensures [x] + (left + right) == ([x] + left) + right
  {
  }

  lemma Uncons<T>(a: seq<T>)
    requires |a| > 0
    ensures a == [a[0]] + a[1..]
  {
  }

  lemma ConsAppend<T>(x: T, a: seq<T>, m: seq<T>, b: seq<T>)
    ensures [x] + (a + m + b) == [x] + a + m + b
  {
  }

  lemma EmptyAppend<T>(a: seq<T>, b: seq<T>)
    requires a == []
    ensures a + b == b
  {
  }

  lemma AppendEmpty<T>(a: seq<T>, b: seq<T>)
    requires b == []
    ensures a + b == a
  {
  }

  lemma AppendAssoc<T>(a: seq<T>, b: seq<T>, c: seq<T>)
    ensures a + (b + c) == a + b + c
  {
  }

  /** The first element and the tail of a concatenation whose left part is
      non-empty. */
  lemma AppendFront<T>(left: seq<T>, right: seq<T>)
    requires |left| >= 1
    ensures (left + right)[0] == left[0]
    ensures (left + right)[1..] == left[1..] + right
  {
  }

  lemma AppendBack<T>(xs: seq<T>, ys: seq<T>)
    requires |ys| >= 1
    ensures (xs + ys)[..|xs + ys| - 1] == xs + ys[..|ys| - 1]
    ensures (xs + ys)[|xs + ys| - 1] == ys[|ys| - 1]
  {
  }

  lemma TakeDrop<T>(s: seq<T>, n: nat)
    requires n <= |s|
    ensures s[..n] + s[n..] == s
  {
  }
}

=== FILE: VersionCodec.dfy ===
/** Conversion between the engine's upstream release tags
    (`spring_bar_{BAR105}105.1.1-807-g98b14ce`) and the version strings
    that name installed engine directories (`BAR-105.1.1-807-g98b14ce`).

    The format check `isEngineTag` is defined outside this model; every
    member that needs it takes it as the parameter `isEngineTag`. */
module VersionCodec {
  import opened Wrappers
  import opened Sequences
  import opened Errors
  import opened JsString

  const VersionPrefix := "BAR-"
  const TagPrefix := "spring_bar_{BAR"

  /** A template literal renders an absent array element as "undefined". */
  function Interpolate(element: Option<string>): string {
    match element
    case Some(s) => s
    case None => "undefined"
  }

  /** `tagName.split("}")[1]`: the second `}`-separated segment, absent when
      the tag has no `}`. */
  function SecondSegment(tagName: string): (r: Option<string>)
    ensures r.None? <==> '}' !in tagName
    ensures r.Some? ==> '}' !in r.value
  {
    var parts := Split(tagName, "}");
    SplitOnChar(tagName, '}');
    if |parts| >= 2 then
      assert tagName == parts[0] + "}" + Join(parts[1..], "}");
      Some(parts[1])
    else
      None
  }

  /** `engineTagNameToVersionString`: "BAR-" followed by the second
      `}`-segment of the tag, accepted only when it passes `isEngineTag`. */
  function EngineTagNameToVersionString(isEngineTag: string -> bool, tagName: string)
    : (r: Result<string, ContentError>)
    ensures r.Success? ==> isEngineTag(r.value)
    ensures r.Success? ==> |r.value| >= 4 && r.value[..4] == VersionPrefix
    ensures r.Success? ==> '}' !in r.value
    ensures r.Failure? ==> r.error == MalformedEngineTag
  {
    var versionString := VersionPrefix + Interpolate(SecondSegment(tagName));
    assert versionString[..4] == VersionPrefix;
    if isEngineTag(versionString) then Success(versionString) else Failure(MalformedEngineTag)
  }

  /** `baseTag.split(".")[0]`: the major version, everything before the
      first `.`. */
  function MajorVersion(baseTag: string): (m: string)
    ensures |m| <= |baseTag| && m == baseTag[..|m|]
    ensures '.' !in m
    ensures m == baseTag || baseTag[|m|] == '.'
  {
    var parts := Split(baseTag, ".");
    SplitOnChar(baseTag, '.');
    if |parts| >= 2 then
      assert baseTag == parts[0] + "." + Join(parts[1..], ".");
      parts[0]
    else
      parts[0]
  }

  /** The upstream tag that `getEngineRelease` looks up for a version
      string: drop the four-character prefix, then embed the major version
      in the bracketed token, `BAR-105.1.1-x` to `spring_bar_{BAR105}105.1.1-x`. */
  function GitTagOf(engineTag: string): (gitTag: string)
    ensures var base := if |engineTag| >= 4 then engineTag[4..] else "";
      && |gitTag| > |TagPrefix| + |base|
      && gitTag[|gitTag| - |base|..] == base
      && gitTag[..|TagPrefix|] == TagPrefix
  {
    var baseTag := if |engineTag| >= 4 then engineTag[4..] else "";
    var gitTag := TagPrefix + MajorVersion(baseTag) + "}" + baseTag;
    assert gitTag[|gitTag| - |baseTag|..] == baseTag;
    gitTag
  }

  // ---------------------------------------------------------------------
  // Properties

  /** The second segment is what follows the first `}`, up to the next
      `}` or the end; later segments play no part. */
  lemma SecondSegmentOf(head: string, segment: string, rest: string)
    requires '}' !in head && '}' !in segment
    requires rest == [] || rest[0] == '}'
    ensures SecondSegment(head + "}" + segment + rest) == Some(segment)
  {
    AppendAssoc(head + "}", segment, rest);
    SplitAround(head, '}', segment + rest);
    SplitWithoutSeparator(head, '}');
    if rest == [] {
      AppendEmpty(segment, rest);
      SplitWithoutSeparator(segment, '}');
    } else {
      Uncons(rest);
      AppendAssoc(segment, ['}'], rest[1..]);
      SplitAround(segment, '}', rest[1..]);
      SplitWithoutSeparator(segment, '}');
    }
  }

  /** The conversion takes the second `}`-segment, not the last one. */
  lemma {:induction false} ConversionUsesSecondSegment(
    isEngineTag: string -> bool, head: string, segment: string, rest: string)
    requires '}' !in head && '}' !in segment
    requires rest == [] || rest[0] == '}'
    ensures EngineTagNameToVersionString(isEngineTag, head + "}" + segment + rest)
         == if isEngineTag(VersionPrefix + segment) then Success(VersionPrefix + segment)
            else Failure(MalformedEngineTag)
  {
    SecondSegmentOf(head, segment, rest);
  }

  /** A tag without `}` renders as "BAR-undefined"; it is rejected exactly
      when the format check rejects that string. */
  lemma TagWithoutBraceFails(isEngineTag: string -> bool, tagName: string)
    requires '}' !in tagName
    requires !isEngineTag("BAR-undefined")
    ensures EngineTagNameToVersionString(isEngineTag, tagName) == Failure(MalformedEngineTag)
  {
    assert VersionPrefix + Interpolate(None) == "BAR-undefined";
  }

  /** Round trip: a version string whose tail holds no `}` survives the
      trip to the upstream tag and back. */
  lemma VersionRoundTrip(isEngineTag: string -> bool, version: string)
    requires |version| >= 4 && version[..4] == VersionPrefix
    requires '}' !in version
    requires isEngineTag(version)
    ensures EngineTagNameToVersionString(isEngineTag, GitTagOf(version)) == Success(version)
  {
    var base := version[4..];
    var major := MajorVersion(base);
    assert '}' !in base;
    assert '}' !in major;
    assert '}' !in TagPrefix;
    var head := TagPrefix + major;
    assert GitTagOf(version) == head + "}" + base + "";
    ConversionUsesSecondSegment(isEngineTag, head, base, "");
    assert version == VersionPrefix + base;
  }

  /** Round trip the other way: a tag already in the upstream shape is
      rebuilt from the version string it converts to. */
  lemma TagRoundTrip(isEngineTag: string -> bool, base: string)
    requires '}' !in base
    requires isEngineTag(VersionPrefix + base)
    ensures var tag := TagPrefix + MajorVersion(base) + "}" + base;
      && EngineTagNameToVersionString(isEngineTag, tag) == Success(VersionPrefix + base)
      && GitTagOf(VersionPrefix + base) == tag
  {
    var version := VersionPrefix + base;
    assert version[..4] == VersionPrefix && version[4..] == base;
    VersionRoundTrip(isEngineTag, version);
  }

  /** The major version is the text before the first `.`. */
  lemma MajorVersionOf(major: string, minor: string)
    requires '.' !in major
    ensures MajorVersion(major + "." + minor) == major
  {
    var base := major + "." + minor;
    var m := MajorVersion(base);
    assert base[|major|] == '.';
    assert forall i :: 0 <= i < |m| ==> m[i] == base[i] && m[i] != '.';
    assert |m| <= |major|;
    assert forall i :: 0 <= i < |major| ==> base[i] == major[i] && base[i] != '.';
    assert |m| >= |major|;
  }

  /** The round trip for a version string written as major, `.`, rest. */
  lemma VersionRoundTripAt(isEngineTag: string -> bool, major: string, minor: string)
    requires '.' !in major
    requires '}' !in major + "." + minor
    requires isEngineTag(VersionPrefix + (major + "." + minor))
    ensures var base := major + "." + minor;
      && EngineTagNameToVersionString(isEngineTag, TagPrefix + major + "}" + base)
         == Success(VersionPrefix + base)
      && GitTagOf(VersionPrefix + base) == TagPrefix + major + "}" + base
  {
    var base := major + "." + minor;
    MajorVersionOf(major, minor);
    TagRoundTrip(isEngineTag, base);
  }

  /** The base of the release in the source's comment, cut into its major
      version and the rest. */
  lemma ExampleBase(base: string, major: string, minor: string)
    requires major == "105" && minor == "1.1-807-g98b14ce" && base == "105.1.1-807-g98b14ce"
    ensures base == major + "." + minor
    ensures '.' !in major && '}' !in base
  {
  }

  lemma ExampleVersionParts(version: string, base: string)
    requires version == "BAR-105.1.1-807-g98b14ce"
    requires base == "105.1.1-807-g98b14ce"
    ensures version == VersionPrefix + base
  {
  }

  lemma ExampleTagPrefix(tag: string, rest: string)
    requires tag == "spring_bar_{BAR105}105.1.1-807-g98b14ce"
    requires rest == "105}105.1.1-807-g98b14ce"
    ensures tag == TagPrefix + rest
  {
  }

  lemma ExampleTagRest(rest: string, major: string, base: string)
    requires rest == "105}105.1.1-807-g98b14ce"
    requires major == "105" && base == "105.1.1-807-g98b14ce"
    ensures rest == major + "}" + base
  {
  }

  /** The tag from the source's comment, cut into the pieces the tag
      rebuild writes. */
  lemma ExampleTagShape(tag: string, major: string, base: string)
    requires tag == "spring_bar_{BAR105}105.1.1-807-g98b14ce"
    requires major == "105" && base == "105.1.1-807-g98b14ce"
    ensures tag == TagPrefix + major + "}" + base
  {
    var rest := "105}105.1.1-807-g98b14ce";
    ExampleTagPrefix(tag, rest);
    ExampleTagRest(rest, major, base);
    AppendAssoc(TagPrefix, major + "}", base);
    AppendAssoc(TagPrefix, major, "}");
  }

  /** The left-hand tag of the example in the comment above the conversion.
      The comment's right-hand side names another build (`-809-g3f69f26`);
      the conversion gives the tag's own build, as stated here. */
  lemma ExampleTag(isEngineTag: string -> bool, tag: string, version: string)
    requires tag == "spring_bar_{BAR105}105.1.1-807-g98b14ce"
    requires version == "BAR-105.1.1-807-g98b14ce"
    requires isEngineTag(version)
    ensures EngineTagNameToVersionString(isEngineTag, tag) == Success(version)
    ensures GitTagOf(version) == tag
  {
    var major, minor := "105", "1.1-807-g98b14ce";
    var base := "105.1.1-807-g98b14ce";
    ExampleBase(base, major, minor);
    ExampleVersionParts(version, base);
    ExampleTagShape(tag, major, base);
    VersionRoundTripAt(isEngineTag, major, minor);
  }
}

=== FILE: VersionManifest.dfy ===
/** `getLatestVersionInfo` after decompression: the newest game version is
    the last line of the manifest, a comma-separated record
    `tag,md5,<ignored>,version`. Downloading and gunzipping the manifest
    are outside the model, which starts from the decompressed text. */
module VersionManifest {
  import opened Wrappers
  import opened JsString

  /** The returned object; a field the record lacks is `undefined`. The tag
      is always present because a split yields at least one piece. */
  datatype VersionInfo = VersionInfo(tag: string, md5: Option<string>, version: Option<string>)

  /** `fields[i]`, or `undefined` past the end. */
  function ElementAt(fields: seq<string>, i: nat): Option<string> {
    if i < |fields| then Some(fields[i]) else None
  }

  /** Destructuring `[tag, md5, something, version]` of `line.split(",")`. */
  function ParseRecord(line: string): (info: VersionInfo)
    ensures |info.tag| <= |line| && info.tag == line[..|info.tag|]
    ensures ',' !in info.tag
    ensures info.md5.None? <==> ',' !in line
    ensures info.md5.Some? ==> ',' !in info.md5.value
    ensures info.version.Some? ==> ',' !in info.version.value && info.md5.Some?
  {
    var fields := Split(line, ",");
    SplitOnChar(line, ',');
    assert |fields| == 1 ==> line == fields[0];
    assert |fields| > 1 ==> line == fields[0] + "," + Join(fields[1..], ",");
    VersionInfo(fields[0], ElementAt(fields, 1), ElementAt(fields, 3))
  }

  /** The last line of the trimmed manifest. */
  function LastLine(versionsText: string): (line: string)
    ensures Trim(versionsText) == "" ==> line == ""
  {
    var lines := Split(Trim(versionsText), "\n");
    lines[|lines| - 1]
  }

  /** The parse of the manifest: trim, split on "\n", take the last line. */
  function LatestVersionInfo(versionsText: string): (info: VersionInfo)
    ensures info.md5.None? <==> ',' !in LastLine(versionsText)
    ensures Trim(versionsText) == "" ==> info == VersionInfo("", None, None)
  {
    ParseRecord(LastLine(versionsText))
  }

  // ---------------------------------------------------------------------
  // Properties

  /** The record read is one line of the manifest: its tag holds no
      newline. */
  lemma LatestIsOneLine(versionsText: string)
    ensures '\n' !in LastLine(versionsText)
    ensures '\n' !in LatestVersionInfo(versionsText).tag
  {
    SplitOnChar(Trim(versionsText), '\n');
  }

  /** A record of any number of comma-free fields reads back its first,
      second and fourth fields; the second and fourth are missing when the
      record has fewer fields. */
  lemma RecordFieldsOf(fields: seq<string>)
    requires |fields| >= 1
    requires forall k :: 0 <= k < |fields| ==> ',' !in fields[k]
    ensures ParseRecord(Join(fields, ",")) == VersionInfo(fields[0], ElementAt(fields, 1), ElementAt(fields, 3))
  {
    JoinSplit(fields, ',');
  }

  /** Fields 0, 1 and 3 are returned; field 2 is read past. */
  lemma RecordFields(tag: string, md5: string, something: string, version: string)
    requires ',' !in tag && ',' !in md5 && ',' !in something && ',' !in version
    ensures ParseRecord(tag + "," + md5 + "," + something + "," + version)
         == VersionInfo(tag, Some(md5), Some(version))
  {
    var fields := [tag, md5, something, version];
    JoinFour(tag, md5, something, version, ",");
    assert forall k :: 0 <= k < |fields| ==> ',' !in fields[k];
    RecordFieldsOf(fields);
  }

  lemma TrimEndOfLastLine(prefix: string, line: string, tail: string)
    requires line != [] && !IsWhitespace(line[0])
    requires AllWhitespace(tail)
    ensures TrimEnd(prefix + line + tail) == prefix + TrimEnd(line)
    ensures TrimEnd(line) != [] && TrimEnd(line)[0] == line[0]
  {
    TrimEndDropsWhitespaceTail(prefix + line, tail);
    assert !AllWhitespace(line);
    TrimEndStopsInSuffix(prefix, line);
  }

  lemma LastPieceAfterNewline(head: string, body: string)
    requires head != [] && head[|head| - 1] == '\n'
    requires '\n' !in body
    ensures var lines := Split(head + body, "\n");
      lines[|lines| - 1] == body
  {
    SplitWithoutSeparator(body, '\n');
    var front := head[..|head| - 1];
    assert head + body == front + ['\n'] + body;
    SplitAround(front, '\n', body);
  }

  lemma LastPieceAfterTrimStart(earlier: string, body: string)
    requires body != [] && !IsWhitespace(body[0]) && '\n' !in body
    ensures var lines := Split(TrimStart(earlier + "\n" + body), "\n");
      lines[|lines| - 1] == body
  {
    var prefix := earlier + "\n";
    assert prefix != [] && prefix[|prefix| - 1] == '\n';
    if AllWhitespace(prefix) {
      TrimStartSkipsWhitespaceHead(prefix, body);
      SplitWithoutSeparator(body, '\n');
    } else {
      TrimStartStopsInPrefix(prefix, body);
      TrimStartIsSuffix(prefix);
      var head := TrimStart(prefix);
      assert head != [];
      assert head[|head| - 1] == '\n';
      LastPieceAfterNewline(head, body);
    }
  }

  /** Trimming the end of a line that starts with a significant character
      keeps that character and adds no newline. */
  lemma TrimmedLine(line: string)
    requires '\n' !in line
    requires line != [] && !IsWhitespace(line[0])
    ensures var body := TrimEnd(line);
      body != [] && !IsWhitespace(body[0]) && '\n' !in body
  {
    TrimEndOfLastLine([], line, []);
    TrimEndKeepsOut(line, '\n');
  }

  lemma LastLineAfterTrimEnd(text: string, trimmedEnd: string)
    requires TrimEnd(text) == trimmedEnd
    ensures var lines := Split(TrimStart(trimmedEnd), "\n");
      LastLine(text) == lines[|lines| - 1]
  {
    TrimUnfold(text);
  }

  lemma LastPieceOfText(earlier: string, line: string, tail: string)
    requires '\n' !in line
    requires line != [] && !IsWhitespace(line[0])
    requires AllWhitespace(tail)
    ensures LastLine(earlier + "\n" + line + tail) == TrimEnd(line)
  {
    TrimEndOfLastLine(earlier + "\n", line, tail);
    TrimmedLine(line);
    LastLineAfterTrimEnd(earlier + "\n" + line + tail, earlier + "\n" + TrimEnd(line));
    LastPieceAfterTrimStart(earlier, TrimEnd(line));
  }

  /** Only the last line counts: whatever precedes it, and whatever
      whitespace follows it, the result is the parse of that line. */
  lemma LastLineWins(earlier: string, line: string, tail: string)
    requires '\n' !in line
    requires line != [] && !IsWhitespace(line[0])
    requires AllWhitespace(tail)
    ensures LatestVersionInfo(earlier + "\n" + line + tail) == ParseRecord(TrimEnd(line))
  {
    LastPieceOfText(earlier, line, tail);
  }

  lemma OneLineTrimmed(line: string, tail: string)
    requires '\n' !in line
    requires line != [] && !IsWhitespace(line[0])
    requires AllWhitespace(tail)
    ensures Trim(line + tail) == TrimEnd(line)
  {
    TrimEndDropsWhitespaceTail(line, tail);
    TrimmedLine(line);
    TrimUnfold(line + tail);
  }

  /** A manifest of a single line, with or without trailing whitespace,
      yields the parse of that line. */
  lemma OneLineManifest(line: string, tail: string)
    requires '\n' !in line
    requires line != [] && !IsWhitespace(line[0])
    requires AllWhitespace(tail)
    ensures LatestVersionInfo(line + tail) == ParseRecord(TrimEnd(line))
  {
    OneLineTrimmed(line, tail);
    TrimEndKeepsOut(line, '\n');
    SplitWithoutSeparator(TrimEnd(line), '\n');
  }

  lemma TrimEndOfSignificantEnd(s: string)
    requires s != [] && !IsWhitespace(s[|s| - 1])
    ensures TrimEnd(s) == s
  {
  }

  /** A manifest whose last line is a well-formed record yields that
      record's tag, hash and version. */
  lemma LatestRecord(earlier: string, tag: string, md5: string, something: string, version: string, tail: string)
    requires ',' !in tag && ',' !in md5 && ',' !in something && ',' !in version
    requires '\n' !in tag && '\n' !in md5 && '\n' !in something && '\n' !in version
    requires tag != [] && !IsWhitespace(tag[0])
    requires version != [] && !IsWhitespace(version[|version| - 1])
    requires AllWhitespace(tail)
    ensures LatestVersionInfo(earlier + "\n" + tag + "," + md5 + "," + something + "," + version + tail)
         == VersionInfo(tag, Some(md5), Some(version))
  {
    var line := tag + "," + md5 + "," + something + "," + version;
    assert line[0] == tag[0];
    assert line[|line| - 1] == version[|version| - 1];
    assert '\n' !in line;
    assert earlier + "\n" + tag + "," + md5 + "," + something + "," + version + tail
        == earlier + "\n" + line + tail;
    LastLineWins(earlier, line, tail);
    TrimEndOfSignificantEnd(line);
    RecordFields(tag, md5, something, version);
  }

  /** A manifest holding a single well-formed record yields that record. */
  lemma SingleRecord(tag: string, md5: string, something: string, version: string, tail: string)
    requires ',' !in tag && ',' !in md5 && ',' !in something && ',' !in version
    requires '\n' !in tag && '\n' !in md5 && '\n' !in something && '\n' !in version
    requires tag != [] && !IsWhitespace(tag[0])
    requires version != [] && !IsWhitespace(version[|version| - 1])
    requires AllWhitespace(tail)
    ensures LatestVersionInfo(tag + "," + md5 + "," + something + "," + version + tail)
         == VersionInfo(tag, Some(md5), Some(version))
  {
    var line := tag + "," + md5 + "," + something + "," + version;
    assert line[0] == tag[0];
    assert line[|line| - 1] == version[|version| - 1];
    assert '\n' !in line;
    OneLineManifest(line, tail);
    TrimEndOfSignificantEnd(line);
    RecordFields(tag, md5, something, version);
  }

  /** A sample manifest: two records, the newest last,
      with a trailing newline. */
  lemma ExampleManifest(text: string)
    requires text == "tagA,hashA,x,1.0\ntagB,hashB,y,2.0\n"
    ensures LatestVersionInfo(text) == VersionInfo("tagB", Some("hashB"), Some("2.0"))
  {
    var earlier, tag, md5, something, version, tail := "tagA,hashA,x,1.0", "tagB", "hashB", "y", "2.0", "\n";
    assert text == earlier + "\n" + tag + "," + md5 + "," + something + "," + version + tail;
    assert AllWhitespace(tail);
    LatestRecord(earlier, tag, md5, something, version, tail);
  }
}

=== FILE: Wrappers.dfy ===
/** Failure-compatible result types shared by the model. */
module Wrappers {

  /** A value that may be absent; `None` stands for JavaScript's `null`,
      `undefined` or `NaN`, whichever the modelled expression produces. */
  datatype Option<+T> = None | Some(value: T) {

    /** The zero- or one-element sequence holding the value, as
        `filter(Boolean)` keeps a non-null entry and drops a null one. */
    function ToSeq(): (s: seq<T>)
      ensures |s| <= 1
      ensures Some? <==> |s| == 1
      ensures Some? ==> s[0] == value
    {
      match this
      case None => []
      case Some(v) => [v]
    }
  }

  /** Either a computed value or the error the source throws instead. */
  datatype Result<+T, +E> = Success(value: T) | Failure(error: E)
}

/** The errors thrown by the content API, one constructor per message. */
module Errors {

  datatype ContentError =
    /** "Couldn't fetch latest engine release": no platform portable asset. */
    | AssetNotFound
    /** "Couldn't parse engine version string from tag name". */
    | MalformedEngineTag
    /** A TypeError from reading a character of `parts[0]` when a stdout
        record consists of spaces only. */
    | UnclassifiableLine
}
